=== FILE: README.md ===
# Greenhouse sensor documents: validation, query and dashboard

A model of the decision logic of a greenhouse monitoring system. Sensor
documents (`<estufa>`) declare sensors (`id`, `tipo`, `unidade`,
`localizacao`) and readings (`sensorRef`, `dataHora`, `valor`). They are
checked twice:

- in the browser, by an exhaustive validator that lists every defect;
- on the server, by a fail-fast business-rule check that reports the first
  offending reading with an XPath.

The server stores accepted documents. A query endpoint joins every stored
reading with its sensor. The browser dashboard turns the query result into
indicator cards, a table of recent readings and a temperature chart. A
small state machine on the submit page decides which text may be sent.

Modules:

| module | file | what it holds |
|---|---|---|
| `Wrappers` | wrappers.dfy | `Option` |
| `Decimal` | decimal.dfy | decimal numerals, for the 1-based XPath |
| `Estufa` | estufa.dfy | documents, the range table, first-wins and last-wins id lookups |
| `ClientValidator` | client_validator.dfy | `validarClienteXML` as a method and as a function, with the per-reading properties |
| `ServerRules` | server_rules.dfy | `validar_regras_negocio`, with its verdict, cause and XPath |
| `Agreement` | agreement.dfy | when the browser and the server agree, and an input on which they do not |
| `ExampleDocument` | example_document.dfy | the built-in example document and variations of it |
| `Consulta` | consulta.dfy | `handle_consulta`: file walk, filter, join and count |
| `XmlById` | xml_by_id.dfy | the file-id guard of `get_xml_by_id`, as written and as intended |
| `Dashboard` | dashboard.dfy | means and count, the ten most recent readings, the temperature series |
| `SubmitGate` | submit_gate.dfy | `ultimoXMLValido` and the send button across user actions |

The two number parsers (`parseFloat` in the browser, `float` on the server)
are one parameter `Parser = string -> Option<real>`. `None` stands for NaN
and for a parse failure. The XML parser, the server's reply to a POST, the
time-label formatter and the directory listing are also parameters.

Points of the code that shape the model:

- The server converts `valor` with `float` before it looks up the sensor's
  category (backend/app/api.py:55-59). So a value that does not parse is
  rejected even on a reading whose sensor is undeclared or whose category
  has no rule, while the browser flags a value that does not parse only on a
  reading of a ruled category (frontend/main.js:191-198). The two checks therefore do not agree on
  such a reading. `ServerRules.UnruledOnlyParsed` states what the server
  does. `Agreement.UnruledUnparseableDiverges` exhibits a document the
  browser accepts and the server rejects. The agreement theorems carry the
  hypothesis `UnparseableOnlyWhereRuled`.
- A reading without `<valor>` makes the server raise before its `try`
  (backend/app/api.py:52). This is the `Crashed` verdict, not a rejection.
- The browser's reference test `!sensorRef` also rejects the empty string
  and shows it as `nulo`. Its category lookup is the selector
  `sensor[id="${sensorRef}"]`, which renders an absent reference as the
  text `null` and returns the first matching sensor. The server's dict
  keeps the last one.
- The table sorts the query result in place before the chart reads it
  (frontend/main.js:239-241, 266). `Dashboard.CarregarDashboard` therefore
  draws the chart from the reordered sequence.

## Model

| member | source | states |
|---|---|---|
| Estufa.Limit | backend/app/api.py:22-27 | exactly the four ruled categories have a range, and each range has min below max; the browser's table (frontend/main.js:167-172) holds the same four entries |
| Estufa.Ids | frontend/main.js:174-175 | every declared id (absent ids included) is in the set, and the set is empty exactly when no sensor is declared |
| Estufa.FirstById | frontend/main.js:192 | the selector finds nothing exactly when no sensor declares the key, otherwise the first sensor declaring it |
| Estufa.ById | backend/app/api.py:49 | the dict's keys are exactly the declared ids |
| Estufa.ByIdLastWins | backend/app/api.py:49 | the dict maps an id to the last sensor that declares it |
| Estufa.FirstWinsAgreesWithLastWins | frontend/main.js:192 | with unique ids the browser's first-wins lookup and the server's last-wins dict give the same sensor for every key |
| ClientValidator.CollectIds | frontend/main.js:174-175 | the loop builds exactly the set of declared ids |
| ClientValidator.CheckReading | frontend/main.js:178-200 | the body of the reading loop emits exactly the defects the reading logic assigns to reading `i` |
| ClientValidator.ValidarClienteXML | frontend/main.js:165-202 | the method returns the "no sensor" entry when the id set is empty, followed by every reading's defects in document order; the loop invariant states the report so far |
| ClientValidator.NoSensorsReported | frontend/main.js:174-176 | the "no sensor" defect appears exactly when no sensor is declared, and then it is the first entry |
| ClientValidator.ReferenceDefect | frontend/main.js:178-184 | a reading gets a reference defect exactly when its `sensorRef` is absent, empty or undeclared; it shows `nulo` exactly for absent or empty references |
| ClientValidator.MissingValorDefect | frontend/main.js:180-189 | a "missing valor" defect appears exactly when `<valor>` is absent; the reading's defects are then the reference defect, if any, followed by that one, and nothing else |
| ClientValidator.RangeDefect | frontend/main.js:191-199 | a reading with a value gets a range defect exactly when its sensor's category has a rule and the value is NaN or outside the inclusive bounds |
| ClientValidator.DefectsOfReading | frontend/main.js:178-200 | the defects about reading `i` in the whole report are exactly that reading's own, in push order: nothing is skipped after an earlier problem |
| ClientValidator.PositionsNonDecreasing | frontend/main.js:178-200 | reading indices never decrease along the report |
| ClientValidator.AcceptedIffAllClean | frontend/main.js:116-123 | the report is empty exactly when a sensor is declared and every reading has a valid reference, a value, and an in-range value where a rule applies |
| ServerRules.XPathRoundTrip | backend/app/api.py:68 | the error XPath of the 0-based reading `i` names position `i + 1` |
| ServerRules.ScanFrom | backend/app/api.py:51-74 | the loop stops at the first reading that raises (an unparseable value, a value out of range, or no `<valor>`), and every earlier reading passed |
| ServerRules.ValidarRegrasNegocio | backend/app/api.py:42-76 | the check passes exactly when every reading passes; otherwise it reports `BUSINESS_RULE_ERROR`, the cause of the first failing reading and its 1-based XPath, or it raises when that reading has no `<valor>` |
| ServerRules.BoundsInclusive | backend/app/api.py:59-61 | a value equal to its category's min or max is never rejected |
| ServerRules.UnruledOnlyParsed | backend/app/api.py:55-59 | a reading whose reference is undeclared or whose category has no rule is rejected exactly when its text does not parse |
| ServerRules.LastDeclarationDecides | backend/app/api.py:49 | with duplicate ids, the last declaration's category is the one range-checked |
| Agreement.ReadingAgreement | backend/app/api.py:55-65 | under unique ids, present references and values, and unparseable text only on ruled readings, a reading passes on the server exactly when the browser has no range defect for it |
| Agreement.ServerAcceptsIffNoClientRangeDefect | backend/app/api.py:51-76 | under the same hypotheses the server accepts exactly when the browser's report has no range defect |
| Agreement.FirstFailureIsFirstRangeDefect | backend/app/api.py:51-74 | the first reading the server stops at is the first reading the browser flags for range |
| Agreement.ServerRejectsAtFirstClientRangeDefect | backend/app/api.py:66-74 | under the same hypotheses the server never raises, and a rejection's XPath names position `i + 1` of the first reading `i` with a browser range defect |
| Agreement.UnruledUnparseableDiverges | backend/app/api.py:55-59 | an unparseable value on a sensor of an unruled category passes the browser and is rejected by the server |
| ExampleDocument.ExampleAcceptedByClient | frontend/main.js:58-87 | the built-in example produces no defect in the browser |
| ExampleDocument.ExampleAcceptedByServer | frontend/main.js:58-87 | the built-in example passes the server's business rules |
| ExampleDocument.LuminosityTooHigh | frontend/main.js:194-198 | with luminosity 250000 the browser reports exactly one range defect, with bounds [0, 200000], and the server rejects with the XPath of the third reading |
| ExampleDocument.UndeclaredSoilSensor | frontend/main.js:182-184 | dropping a sensor declaration while keeping its reading gives exactly one reference defect, at that reading |
| Consulta.Select | backend/app/api.py:200-205 | the filtered readings come from the file and match the filter; every matching reading is kept; with no or an empty filter all readings are kept |
| Consulta.SelectMultiplicity | backend/app/api.py:205 | a matching reading is returned as many times as the document holds it, and a non-matching one never |
| Consulta.SelectAppend | backend/app/api.py:205 | the result keeps document order: selecting from two consecutive parts of a document is selecting from each part in turn |
| Consulta.RecordsOf | backend/app/api.py:207-219 | the records exist exactly when every selected value converts; there is one per selected reading, carrying its id, its sensor's category, unit and location (or `desconhecido`, `N/A`, `""` for an undeclared reference), its time, value and file name |
| Consulta.FileRecords | backend/app/api.py:185-219 | a file not ending in `.xml` contributes nothing; a `.xml` file fails exactly when it does not parse or one of its selected readings has a value that does not convert; otherwise it gives one record per selected reading, in order, each naming the file |
| Consulta.FileRecordsJoin | backend/app/api.py:195-219 | a `.xml` file that does not fail contributes exactly the records of its selected readings, joined with that file's own sensors, in document order |
| Consulta.Collect | backend/app/api.py:183-222 | the walk succeeds exactly when every file succeeds; every record names a listed `.xml` file and matches an active filter |
| Consulta.FileRecordsDescribe | backend/app/api.py:205-219 | every record a file contributes is one of that file's selected readings joined with that file's own sensors: its id, category, unit, location, time, converted value and the file's name |
| Consulta.CollectSingle | backend/app/api.py:185-219 | a listing of one file yields exactly that file's records, or fails exactly when that file does |
| Consulta.CollectAppend | backend/app/api.py:185-219 | the walk keeps listing order: two consecutive parts of the listing give the first part's records followed by the second's, and the walk fails exactly when either part does |
| Consulta.CollectDescribes | backend/app/api.py:185-219 | every record of a successful walk is the joined record of a selected reading of one of the listed files |
| Consulta.HandleConsulta | backend/app/api.py:171-230 | `totalResultados` is the number of records and the filter is echoed; `leituras` is exactly the walk's records, so every selected reading of every `.xml` file appears once, in listing order and then document order, each joined with its own file's sensors; the reply is `QUERY_ERROR` exactly when some file fails |
| Consulta.TotalIsSelectedCount | backend/app/api.py:226-229 | `totalResultados` equals the number of readings the filter selects over all `.xml` files |
| Consulta.AcceptedFilesAreQueryable | backend/app/api.py:217 | when every `.xml` file parses and passed the business rules, the query returns results for any filter |
| Consulta.OneBadFileSpoilsTheQuery | backend/app/api.py:192-222 | one unparseable `.xml` file turns the whole reply into `QUERY_ERROR` |
| Consulta.OneBadSelectedValueSpoilsTheQuery | backend/app/api.py:217-222 | one selected reading whose value does not convert turns the whole reply into `QUERY_ERROR` |
| Consulta.ExcludedValuesDoNotMatter | backend/app/api.py:205-217 | a file whose selected readings all convert contributes its records, whatever values the readings the filter excludes hold |
| XmlById.SafeIdIffNoTraversal | backend/app/api.py:154 | the guard accepts an id exactly when it contains no `..`, `/` or `\` |
| XmlById.GetXmlByIdAsWritten | backend/app/api.py:147-168 | as written, only a safe id naming a stored file is served, with that file's content; every other request gets the 500 `SERVER_ERROR` reply |
| XmlById.TraversalAnswered500 | backend/app/api.py:154-155 | as written, the id `a..b` (no slash and no dot segment, so any HTTP client delivers it) gets the 500 `SERVER_ERROR` reply, not 400 |
| XmlById.AsWrittenDiffersExactlyOnErrors | backend/app/api.py:152-168 | the endpoint as written answers as intended exactly for a safe id naming a stored file, and differs (500 instead of 400 or 404) on every other request |
| XmlById.MissingFileAnswered500 | backend/app/api.py:159-166 | as written, a safe id naming no file gets the 500 `SERVER_ERROR` reply |
| XmlById.GetXmlById | backend/app/api.py:152-166 | an unsafe id gets 400 whatever is stored, a safe missing id gets 404, and exactly a safe stored id is served |
| Dashboard.OfTipo | frontend/main.js:251-253 | the filter keeps entries of the category only, from the input, and keeps every such entry |
| Dashboard.Media | frontend/main.js:255 | no mean for an empty list; otherwise mean times count equals the sum |
| Dashboard.MediaWithin | frontend/main.js:255 | a mean lies between any bounds all its values lie between |
| Dashboard.RenderizarKpis | frontend/main.js:249-261 | the count is the number of all readings; each category's card shows the mean of the values of exactly that category's readings (a value whose product with their count is their sum), and it is missing exactly when no reading has that category |
| Dashboard.KpiWithinRange | frontend/main.js:251-259 | when every reading of a ruled category is within its range, so is the mean shown for it |
| Dashboard.Sort | frontend/main.js:266 | the result is ordered by instant and is a permutation of the input |
| Dashboard.Recentes | frontend/main.js:266 | at most ten readings, min(10, n), most recent first, a sub-multiset of the input |
| Dashboard.RecentesAreMostRecent | frontend/main.js:266 | no reading left out of the table is more recent than one shown |
| Dashboard.RenderizarTabela | frontend/main.js:263-271 | the placeholder row appears exactly for an empty result; otherwise the rows are the ten (or fewer) most recent readings, newest first, as `Recentes` gives them |
| Dashboard.SerieTemperatura | frontend/main.js:287-289 | the series is oldest first and is a permutation of the temperature readings |
| Dashboard.SerieIsTemperatures | frontend/main.js:287-289 | every point is a temperature reading of the query and every temperature reading is a point |
| Dashboard.RenderizarGrafico | frontend/main.js:285-293 | labels and values have the series' length, point `k` is the value and time label of the `k`-th series entry, and the chart is empty exactly when there is no temperature reading |
| Dashboard.CarregarDashboard | frontend/main.js:228-241 | a zero total shows the sentinels and the "no data" row and leaves the chart alone; otherwise the indicators, table and chart are drawn |
| Dashboard.ChartAfterInPlaceSort | frontend/main.js:239-241 | drawing the chart from the table's in-place reordering still plots exactly the query's temperature readings, oldest first |
| SubmitGate.OnValidate | frontend/main.js:96-124 | blank input changes only the notice; the text and the pending POSTs are never touched; otherwise the button is disabled exactly when the text fails validation, and an accepted text is stored |
| SubmitGate.OnClick | frontend/main.js:127-140 | a body is sent exactly when the button is enabled and a text is stored, and it is the stored text; the click leaves the stored text and the button as they were and adds one pending request |
| SubmitGate.OnReply | frontend/main.js:142-156 | a reply settles one pending request and acts on the state of that moment; only a created reply clears the stored text and disables the button |
| SubmitGate.Step | frontend/main.js:89-157 | every user action and every reply keeps the gate invariant, and anything sent was accepted |
| SubmitGate.Run | frontend/main.js:31 | over any sequence of actions the invariant holds and every sent body was accepted by the browser's validator |
| SubmitGate.OnlyValidatedTextIsSent | frontend/main.js:122 | from a freshly loaded page, the stored text is always `""` or an accepted text, and only accepted texts are ever sent |
| SubmitGate.SubmitRefusedWhenEmpty | frontend/main.js:128-131 | with nothing stored, a click sends nothing |
| SubmitGate.SubmitOutcomes | frontend/main.js:144-152 | a created document clears the stored text and disables the button; an error or a network failure leaves both |
| SubmitGate.EditAfterValidationSendsValidatedText | frontend/main.js:139 | editing after a successful validation and sending at once posts the validated text, not the edited one |
| SubmitGate.DoubleClickSendsTwice | frontend/main.js:127-140 | the button stays enabled while a request is pending, so two clicks post the same text twice |
| SubmitGate.LateReplyDiscardsNewValidation | frontend/main.js:120-151 | click, edit, validate, then a created reply to the click: the click sent the old text, the validation stored the new text and enabled the button, and the reply clears the new text and disables the button, though the new text was never sent |
| SubmitGate.FailedRevalidationKeepsStoredText | frontend/main.js:108-119 | a failed revalidation disables the button, keeps the old stored text, and lets nothing be sent |
| SubmitGate.BlankInputNeverStored | frontend/main.js:98-101 | validating whitespace-only input (as `String.prototype.trim` defines it) changes neither the stored text nor the button |

## Findings

| source | as written | input that shows it | evidently intended | confidence | as-written member | corrected member |
|---|---|---|---|---|---|---|
| backend/app/api.py:152-168 | `abort(400)` is raised inside the `try`, and `except Exception` turns it into a 500 `SERVER_ERROR` reply | id `a..b` | the traversal guard answers 400 | not executed | XmlById.GetXmlByIdAsWritten, XmlById.TraversalAnswered500, XmlById.AsWrittenDiffersExactlyOnErrors | XmlById.GetXmlById |
| backend/app/api.py:159-168 | a missing file makes `send_from_directory` raise an HTTP "not found" exception, not `FileNotFoundError`, so `except Exception` answers 500 | id `leitura_x.xml` with no such file | a missing file answers 404 | not executed | XmlById.GetXmlByIdAsWritten, XmlById.MissingFileAnswered500, XmlById.AsWrittenDiffersExactlyOnErrors | XmlById.GetXmlById |

## Left out

- DOM, events and navigation: `showView`, `setStatus` texts, `innerHTML` rows, Chart.js instances. They are rendering; the model keeps what is shown as data (`Notice`, `Table`, `Grafico`, `Kpis`).
- Network and transport: `fetch`, Flask routing, CORS, JSON encoding. The server's answer to a POST is the `Outcome` carried by a `Reply` event. Replies settle pending requests in whatever order the events give; which request a reply belongs to is not tracked.
- `handle_post_xml`, the XSD check and persistence: XSD validation, file writing and `uuid` are foreign libraries and I/O. Documents enter the model already parsed.
- XML parsing: `DOMParser` and lxml are the `parseXml` parameter and `StoredFile.doc`. `querySelectorAll("sensores sensor")` matching nested elements anywhere is not modelled; the document's sensor list is taken as given.
- Number grammars: `parseFloat` and `float` differ ("12abc" is 12 for one and an error for the other). Both are one abstract parser, and the agreement theorems assume the same parser on both sides.
- ServerRules.Offence: a parser result is a real or `None`, and `None` stands for NaN as well as for a failure. Python's `float("nan")` and `float("inf")` succeed, so on the server the texts "nan" and "inf" pass on a reading whose sensor is undeclared or whose category has no rule (backend/app/api.py:56-59); a ruled NaN still fails the range test. The model rejects such a reading instead, as `ServerRules.UnruledOnlyParsed` states.
- Floating point: values are exact reals. IEEE rounding, infinities, -0 and `toFixed(1)` are not modelled.
- Dates: `new Date` parsing is replaced by an integer instant. An invalid date makes the JavaScript comparator return NaN; that case is not modelled. `toLocaleTimeString` is the `rotulo` parameter.
- Dashboard.Sort: the function is stable (an element stays ahead of equal-instant elements it preceded), but no lemma states stability.
- Dashboard.CarregarDashboard: the fetch-failure branch and its error row are network handling and are not modelled.
- Consulta.Select: a filter containing an apostrophe changes or breaks the XPath `[@sensorRef='…']`. The model treats the filter as plain equality, so it does not cover that case.
- Consulta.HandleConsulta: the order of `os.listdir` is the order of the `files` parameter.
- ClientValidator.TipoOf: inside the selector's quoted string a `\` starts a CSS escape, so a reference containing one may look up a different id (`a\62` looks up `ab`); a `"` ends the string early and makes `querySelector` throw. The model looks up the reference text as it is, so it does not cover either case.
- ClientValidator.CheckReading: a category named like an `Object.prototype` member (`constructor`, for example) is found in the JavaScript `limites` object. The validator then fails when it destructures that entry. The model looks categories up in the four-entry table only.
- ServerRules.ValidarRegrasNegocio: for an empty `<valor/>`, lxml's `.text` is `None` and `float(None)` raises. The model hands the parser the empty text, so that case depends on the parser returning `None` for "".
- Initial page state: the page's HTML is not part of this model. `SubmitGate.Initial` takes the send button as disabled on load; `SubmitGate.SubmitRefusedWhenEmpty` covers an enabled one.

=== FILE: agreement.dfy ===
/** How the browser's exhaustive check and the server's fail-fast check
    relate on one document, given one number parser for both. */
module Agreement {
  import opened Wrappers
  import opened Estufa
  import opened ClientValidator
  import opened ServerRules

  /** Every reading names a sensor and has a `<valor>` child. */
  predicate RefsAndValoresPresent(doc: Document) {
    forall i :: 0 <= i < |doc.leituras| ==> doc.leituras[i].sensorRef.Some? && doc.leituras[i].valor.Some?
  }

  /** Every text the parser rejects belongs to a reading whose sensor's
      category has a range rule (the server parses every value, the
      client only the ruled ones). */
  predicate UnparseableOnlyWhereRuled(doc: Document, parse: Parser) {
    forall i :: 0 <= i < |doc.leituras| && doc.leituras[i].valor.Some? && parse(doc.leituras[i].valor.value).None? ==>
      RuleFor(TipoOf(doc, doc.leituras[i].sensorRef)).Some?
  }

  /** The report holds no range defect at all. */
  predicate NoRangeDefect(ds: seq<Defect>) {
    forall d :: d in ds ==> !d.OutOfRange?
  }

  /** Reading by reading, the server's loop body passes exactly when the
      client reports no range defect for it. */
  lemma ReadingAgreement(doc: Document, parse: Parser, i: nat)
    requires UniqueIds(doc.sensores) && RefsAndValoresPresent(doc) && UnparseableOnlyWhereRuled(doc, parse)
    requires i < |doc.leituras|
    ensures Passes(doc, ById(doc.sensores), parse, i) <==> !HasRangeDefect(ClientDefects(doc, parse), i)
  {
    var ref := doc.leituras[i].sensorRef;
    RangeDefect(doc, parse, i);
    assert SelectorKey(ref) == ref;
    FirstWinsAgreesWithLastWins(doc.sensores, ref);
    assert TipoOf(doc, ref) == ServerTipo(ById(doc.sensores), ref);
  }

  /** A range defect always points at a reading of the document. */
  lemma RangeDefectInDocument(doc: Document, parse: Parser, d: Defect)
    requires d in ClientDefects(doc, parse) && d.OutOfRange?
    ensures d.index < |doc.leituras| && HasRangeDefect(ClientDefects(doc, parse), d.index)
  {
    var ids := Ids(doc.sensores);
    var rest := ReadingsDefects(doc, ids, parse, |doc.leituras|);
    ReadingsDefectsOrdered(doc, ids, parse, |doc.leituras|);
    assert d in rest;
  }

  /** When every reading has a `<valor>`, the server never raises. */
  lemma NeverCrashes(doc: Document, parse: Parser)
    requires RefsAndValoresPresent(doc)
    ensures !ValidarRegrasNegocio(doc, parse).Crashed?
  {
  }

  /** The per-reading agreement for all readings at once. */
  lemma AllReadingsAgree(doc: Document, parse: Parser)
    requires UniqueIds(doc.sensores) && RefsAndValoresPresent(doc) && UnparseableOnlyWhereRuled(doc, parse)
    ensures forall i :: 0 <= i < |doc.leituras| ==>
      (Passes(doc, ById(doc.sensores), parse, i) <==> !HasRangeDefect(ClientDefects(doc, parse), i))
  {
    forall i | 0 <= i < |doc.leituras|
      ensures Passes(doc, ById(doc.sensores), parse, i) <==> !HasRangeDefect(ClientDefects(doc, parse), i)
    {
      ReadingAgreement(doc, parse, i);
    }
  }

  /** With unique sensor ids, every reading referencing a sensor and
      carrying a value, and unparseable values only on ruled readings, the
      server accepts exactly when the client finds no range defect. */
  lemma ServerAcceptsIffNoClientRangeDefect(doc: Document, parse: Parser)
    requires UniqueIds(doc.sensores) && RefsAndValoresPresent(doc) && UnparseableOnlyWhereRuled(doc, parse)
    ensures ValidarRegrasNegocio(doc, parse).Passed? <==> NoRangeDefect(ClientDefects(doc, parse))
  {
    var all := ClientDefects(doc, parse);
    AllReadingsAgree(doc, parse);
    if !NoRangeDefect(all) {
      var d :| d in all && d.OutOfRange?;
      RangeDefectInDocument(doc, parse, d);
      assert !Passes(doc, ById(doc.sensores), parse, d.index);
    }
  }

  /** The first reading the server stops at is the first reading the
      client flags for range. */
  lemma FirstFailureIsFirstRangeDefect(doc: Document, parse: Parser, i: nat)
    requires UniqueIds(doc.sensores) && RefsAndValoresPresent(doc) && UnparseableOnlyWhereRuled(doc, parse)
    requires i < |doc.leituras| && !Passes(doc, ById(doc.sensores), parse, i)
    requires forall j :: 0 <= j < i ==> Passes(doc, ById(doc.sensores), parse, j)
    ensures HasRangeDefect(ClientDefects(doc, parse), i)
    ensures forall j :: 0 <= j < i ==> !HasRangeDefect(ClientDefects(doc, parse), j)
  {
    ReadingAgreement(doc, parse, i);
    forall j | 0 <= j < i ensures !HasRangeDefect(ClientDefects(doc, parse), j) {
      ReadingAgreement(doc, parse, j);
    }
  }

  /** Under the same hypotheses, a rejection's XPath names the first
      reading the client flags for range, and the server never raises. */
  lemma ServerRejectsAtFirstClientRangeDefect(doc: Document, parse: Parser)
    requires UniqueIds(doc.sensores) && RefsAndValoresPresent(doc) && UnparseableOnlyWhereRuled(doc, parse)
    ensures !ValidarRegrasNegocio(doc, parse).Crashed?
    ensures ValidarRegrasNegocio(doc, parse).Rejected? ==>
      exists i :: 0 <= i < |doc.leituras| && HasRangeDefect(ClientDefects(doc, parse), i)
        && XPathPosition(ValidarRegrasNegocio(doc, parse).error.xpath) == Some(i + 1)
        && forall j :: 0 <= j < i ==> !HasRangeDefect(ClientDefects(doc, parse), j)
  {
    NeverCrashes(doc, parse);
    var v := ValidarRegrasNegocio(doc, parse);
    if v.Rejected? {
      var i := Scan(doc, parse).index;
      FirstFailureIsFirstRangeDefect(doc, parse, i);
      assert XPathPosition(v.error.xpath) == Some(i + 1);
      assert HasRangeDefect(ClientDefects(doc, parse), i);
    }
  }

  /** Without the last hypothesis the two sides part ways: a value the
      parser rejects on a sensor whose category has no rule passes the
      client and is rejected by the server. */
  lemma UnruledUnparseableDiverges()
    ensures var doc := Document([Sensor(Some("p1"), Some("pressao"), None, "")], [Reading(Some("p1"), None, Some("x"))]);
      var parse: Parser := (t: string) => None;
      ClientDefects(doc, parse) == [] && ValidarRegrasNegocio(doc, parse).Rejected?
  {
    var doc := Document([Sensor(Some("p1"), Some("pressao"), None, "")], [Reading(Some("p1"), None, Some("x"))]);
    var parse: Parser := (t: string) => None;
    assert Some("p1") in Ids(doc.sensores);
    assert FirstById(doc.sensores, Some("p1")) == Some(doc.sensores[0]);
    assert Contributions(doc, Ids(doc.sensores), parse)[..0] == [];
    ReadingsDefectsSnoc(doc, Ids(doc.sensores), parse, 0);
    assert ReadingsDefects(doc, Ids(doc.sensores), parse, 1) == [];
    assert ScanFrom(doc, ById(doc.sensores), parse, 0) == Offending(0, Unparseable("x"));
  }
}

=== FILE: client_validator.dfy ===
/** The browser's exhaustive validator `validarClienteXML`: one pass over
    the readings that collects every defect instead of stopping at the
    first. */
module ClientValidator {
  import opened Wrappers
  import opened Estufa

  /** One entry of the list the validator returns. */
  datatype Defect =
    | NoSensors
    | BadRef(index: nat, shown: Option<string>)
    | MissingValor(index: nat)
    | OutOfRange(index: nat, valor: Option<real>, sensorRef: Option<string>, tipo: string, range: Range)

  /** The reading a defect is about; the document-level defect sits at -1. */
  function Position(d: Defect): int {
    if d.NoSensors? then -1 else d.index
  }

  /** The reference test: absent, empty, or not a declared id. */
  predicate RefInvalid(ref: Option<string>, ids: set<Option<string>>) {
    ref.None? || ref.value == "" || ref !in ids
  }

  /** What a reference defect shows: `None` is the placeholder 'nulo',
      used for an absent and for an empty reference alike. */
  function Shown(ref: Option<string>): Option<string> {
    if ref == Some("") then None else ref
  }

  /** The id the selector `sensor[id="${sensorRef}"]` looks for: the
      template renders an absent reference as the text "null". */
  function SelectorKey(ref: Option<string>): Option<string> {
    if ref.Some? then ref else Some("null")
  }

  /** The `tipo` of the first sensor the selector matches, if any. */
  function TipoOf(doc: Document, ref: Option<string>): Option<string> {
    match FirstById(doc.sensores, SelectorKey(ref))
    case None => None
    case Some(s) => s.tipo
  }

  /** The range test of the client: NaN, or below `min`, or above `max`. */
  predicate Violates(v: Option<real>, r: Range) {
    v.None? || v.value < r.min || v.value > r.max
  }

  /** The defects reading `i` contributes, in the order they are pushed. */
  function ReadingDefects(doc: Document, ids: set<Option<string>>, parse: Parser, i: nat): seq<Defect>
    requires i < |doc.leituras|
  {
    var r := doc.leituras[i];
    var refPart := if RefInvalid(r.sensorRef, ids) then [BadRef(i, Shown(r.sensorRef))] else [];
    match r.valor
    case None => refPart + [MissingValor(i)]
    case Some(text) =>
      var v := parse(text);
      var tipo := TipoOf(doc, r.sensorRef);
      match RuleFor(tipo)
      case None => refPart
      case Some(range) =>
        if Violates(v, range) then refPart + [OutOfRange(i, v, r.sensorRef, tipo.value, range)] else refPart
  }

  /** What each reading contributes, reading by reading. */
  function Contributions(doc: Document, ids: set<Option<string>>, parse: Parser): (parts: seq<seq<Defect>>)
    ensures |parts| == |doc.leituras|
  {
    seq(|doc.leituras|, k requires 0 <= k < |doc.leituras| => ReadingDefects(doc, ids, parse, k))
  }

  /** The contributions one after the other. */
  function Flatten(parts: seq<seq<Defect>>): seq<Defect> {
    if parts == [] then [] else Flatten(parts[..|parts| - 1]) + parts[|parts| - 1]
  }

  /** The defects of the first `n` readings. */
  function ReadingsDefects(doc: Document, ids: set<Option<string>>, parse: Parser, n: nat): seq<Defect>
    requires n <= |doc.leituras|
  {
    Flatten(Contributions(doc, ids, parse)[..n])
  }

  /** One more reading appends its own contribution. */
  lemma ReadingsDefectsSnoc(doc: Document, ids: set<Option<string>>, parse: Parser, n: nat)
    requires n < |doc.leituras|
    ensures ReadingsDefects(doc, ids, parse, n + 1) == ReadingsDefects(doc, ids, parse, n) + ReadingDefects(doc, ids, parse, n)
  {
    var parts := Contributions(doc, ids, parse);
    assert parts[..n + 1][..n] == parts[..n];
    assert parts[..n + 1][n] == parts[n];
  }

  /** The document-level part: a defect when the id set is empty. */
  function Header(doc: Document): seq<Defect> {
    if |Ids(doc.sensores)| == 0 then [NoSensors] else []
  }

  /** The whole report; the document is accepted exactly when it is empty. */
  function ClientDefects(doc: Document, parse: Parser): seq<Defect> {
    Header(doc) + ReadingsDefects(doc, Ids(doc.sensores), parse, |doc.leituras|)
  }

  /** The first loop: `sensorIds.add` for each declared sensor. */
  method CollectIds(sensores: seq<Sensor>) returns (sensorIds: set<Option<string>>)
    ensures sensorIds == Ids(sensores)
  {
    sensorIds := {};
    var k := 0;
    while k < |sensores|
      invariant k <= |sensores|
      invariant sensorIds == Ids(sensores[..k])
    {
      assert sensores[..k + 1][..k] == sensores[..k];
      sensorIds := sensorIds + {sensores[k].id};
      k := k + 1;
    }
    assert sensores[..k] == sensores;
  }

  /** The body of the `forEach` over readings, for reading `i`. */
  method CheckReading(doc: Document, sensorIds: set<Option<string>>, parse: Parser, i: nat) returns (novos: seq<Defect>)
    requires i < |doc.leituras|
    ensures novos == ReadingDefects(doc, sensorIds, parse, i)
  {
    novos := [];
    var leitura := doc.leituras[i];
    var sensorRef := leitura.sensorRef;
    if sensorRef.None? || sensorRef.value == "" || sensorRef !in sensorIds {
      var shown := if sensorRef.None? || sensorRef.value == "" then None else sensorRef;
      novos := novos + [BadRef(i, shown)];
    }
    if leitura.valor.None? {
      novos := novos + [MissingValor(i)];
      return;
    }
    var valor := parse(leitura.valor.value);
    var sensor := FirstById(doc.sensores, SelectorKey(sensorRef));
    var sensorTipo := if sensor.Some? then sensor.value.tipo else None;
    if sensorTipo.Some? && sensorTipo.value != "" && Limit(sensorTipo.value).Some? {
      var range := Limit(sensorTipo.value).value;
      if valor.None? || valor.value < range.min || valor.value > range.max {
        novos := novos + [OutOfRange(i, valor, sensorRef, sensorTipo.value, range)];
      }
    }
  }

  /** The validator as the browser runs it: collect the ids, flag an empty
      set, then walk the readings collecting defects. */
  method ValidarClienteXML(doc: Document, parse: Parser) returns (erros: seq<Defect>)
    ensures erros == ClientDefects(doc, parse)
  {
    erros := [];
    var sensorIds := CollectIds(doc.sensores);
    if |sensorIds| == 0 {
      erros := erros + [NoSensors];
    }
    var i := 0;
    assert Contributions(doc, sensorIds, parse)[..0] == [];
    while i < |doc.leituras|
      invariant i <= |doc.leituras|
      invariant erros == Header(doc) + ReadingsDefects(doc, sensorIds, parse, i)
    {
      var novos := CheckReading(doc, sensorIds, parse, i);
      ReadingsDefectsSnoc(doc, sensorIds, parse, i);
      assert (Header(doc) + ReadingsDefects(doc, sensorIds, parse, i)) + novos
        == Header(doc) + (ReadingsDefects(doc, sensorIds, parse, i) + novos);
      erros := erros + novos;
      i := i + 1;
    }
  }

  // ---------------------------------------------------------------------
  // What the report says about each reading

  /** The defects of `ds` that are about reading `i`, in report order. */
  function At(ds: seq<Defect>, i: int): (r: seq<Defect>)
    ensures |r| <= |ds|
  {
    if ds == [] then []
    else (if Position(ds[0]) == i then [ds[0]] else []) + At(ds[1..], i)
  }

  lemma {:induction false} AtAppend(a: seq<Defect>, b: seq<Defect>, i: int)
    ensures At(a + b, i) == At(a, i) + At(b, i)
    decreases |a|
  {
    if a == [] {
      assert a + b == b;
    } else {
      var h := if Position(a[0]) == i then [a[0]] else [];
      assert (a + b)[0] == a[0];
      assert (a + b)[1..] == a[1..] + b;
      assert At(a + b, i) == h + At(a[1..] + b, i);
      AtAppend(a[1..], b, i);
      assert At(a, i) == h + At(a[1..], i);
      assert h + (At(a[1..], i) + At(b, i)) == (h + At(a[1..], i)) + At(b, i);
    }
  }

  lemma {:induction false} AtMember(ds: seq<Defect>, i: int, d: Defect)
    ensures d in At(ds, i) <==> d in ds && Position(d) == i
    decreases |ds|
  {
    if ds != [] {
      AtMember(ds[1..], i, d);
      assert ds == [ds[0]] + ds[1..];
    }
  }

  /** A list of contributions in which contribution `k` is only about
      reading `k`. */
  predicate Indexed(parts: seq<seq<Defect>>) {
    forall k, p :: 0 <= k < |parts| && 0 <= p < |parts[k]| ==> Position(parts[k][p]) == k
  }

  /** Flattening indexed contributions yields positions that point into
      them and never go down along the list. */
  lemma {:induction false} FlattenOrdered(parts: seq<seq<Defect>>)
    requires Indexed(parts)
    ensures forall p :: 0 <= p < |Flatten(parts)| ==> 0 <= Position(Flatten(parts)[p]) < |parts|
    ensures forall p, q :: 0 <= p < q < |Flatten(parts)| ==> Position(Flatten(parts)[p]) <= Position(Flatten(parts)[q])
    decreases |parts|
  {
    if parts != [] {
      var init := parts[..|parts| - 1];
      var last := parts[|parts| - 1];
      assert Indexed(init) by {
        forall k, p | 0 <= k < |init| && 0 <= p < |init[k]| ensures Position(init[k][p]) == k {
          assert init[k] == parts[k];
        }
      }
      FlattenOrdered(init);
      var all := Flatten(init) + last;
      assert Flatten(parts) == all;
      forall p | 0 <= p < |all| ensures 0 <= Position(all[p]) < |parts| {
        if p >= |Flatten(init)| { assert all[p] == last[p - |Flatten(init)|]; }
      }
      forall p, q | 0 <= p < q < |all| ensures Position(all[p]) <= Position(all[q]) {
        var f := |Flatten(init)|;
        if q >= f {
          assert all[q] == last[q - f];
          if p >= f { assert all[p] == last[p - f]; } else { assert all[p] == Flatten(init)[p]; }
        } else {
          assert all[p] == Flatten(init)[p] && all[q] == Flatten(init)[q];
        }
      }
    }
  }

  /** The reading logic only ever reports about the reading it is given. */
  lemma ContributionsIndexed(doc: Document, ids: set<Option<string>>, parse: Parser)
    ensures Indexed(Contributions(doc, ids, parse))
  {
    var parts := Contributions(doc, ids, parse);
    forall k | 0 <= k < |parts| ensures forall p :: 0 <= p < |parts[k]| ==> Position(parts[k][p]) == k {
      ReadingDefectsPosition(doc, ids, parse, k);
    }
  }

  /** Every defect of the first `n` readings points into them, and the
      positions never go down along the list. */
  lemma ReadingsDefectsOrdered(doc: Document, ids: set<Option<string>>, parse: Parser, n: nat)
    requires n <= |doc.leituras|
    ensures forall p :: 0 <= p < |ReadingsDefects(doc, ids, parse, n)| ==>
      0 <= Position(ReadingsDefects(doc, ids, parse, n)[p]) < n
    ensures forall p, q :: 0 <= p < q < |ReadingsDefects(doc, ids, parse, n)| ==>
      Position(ReadingsDefects(doc, ids, parse, n)[p]) <= Position(ReadingsDefects(doc, ids, parse, n)[q])
  {
    var parts := Contributions(doc, ids, parse);
    ContributionsIndexed(doc, ids, parse);
    assert Indexed(parts[..n]) by {
      forall k, p | 0 <= k < n && 0 <= p < |parts[..n][k]| ensures Position(parts[..n][k][p]) == k {
        assert parts[..n][k] == parts[k];
      }
    }
    FlattenOrdered(parts[..n]);
  }

  /** Every defect a reading contributes is about that reading. */
  lemma ReadingDefectsPosition(doc: Document, ids: set<Option<string>>, parse: Parser, i: nat)
    requires i < |doc.leituras|
    ensures forall p :: 0 <= p < |ReadingDefects(doc, ids, parse, i)| ==>
      Position(ReadingDefects(doc, ids, parse, i)[p]) == i
  {
  }

  /** Filtering a list whose defects are all about reading `j`. */
  lemma {:induction false} AtUniform(ds: seq<Defect>, i: int, j: int)
    requires forall p :: 0 <= p < |ds| ==> Position(ds[p]) == j
    ensures At(ds, i) == (if i == j then ds else [])
    decreases |ds|
  {
    if ds != [] {
      AtUniform(ds[1..], i, j);
      if i == j { assert ds == [ds[0]] + ds[1..]; }
    }
  }

  /** Appending defects that are all about reading `j` adds them to the
      part about `j` and to no other part. */
  lemma AtSnoc(front: seq<Defect>, last: seq<Defect>, i: int, j: int)
    requires forall p :: 0 <= p < |last| ==> Position(last[p]) == j
    ensures At(front + last, i) == At(front, i) + (if i == j then last else [])
  {
    AtAppend(front, last, i);
    AtUniform(last, i, j);
  }

  /** The part of flattened indexed contributions about reading `i` is
      contribution `i`. */
  lemma {:induction false} AtFlatten(parts: seq<seq<Defect>>, i: int)
    requires Indexed(parts)
    ensures At(Flatten(parts), i) == (if 0 <= i < |parts| then parts[i] else [])
    decreases |parts|
  {
    if parts != [] {
      var n := |parts| - 1;
      var init := parts[..n];
      assert Indexed(init) by {
        forall k, p | 0 <= k < |init| && 0 <= p < |init[k]| ensures Position(init[k][p]) == k {
          assert init[k] == parts[k];
        }
      }
      var last := parts[n];
      assert Flatten(parts) == Flatten(init) + last;
      assert forall p :: 0 <= p < |last| ==> Position(last[p]) == n;
      AtFlatten(init, i);
      AtSnoc(Flatten(init), last, i, n);
      if 0 <= i < n {
        assert init[i] == parts[i];
        assert At(Flatten(parts), i) == parts[i] + [];
      } else if i == n {
        assert At(Flatten(parts), i) == [] + last;
      }
    }
  }

  /** The part of the first `n` readings' defects about reading `i` is
      exactly what reading `i` contributes. */
  lemma AtReadingsDefects(doc: Document, ids: set<Option<string>>, parse: Parser, n: nat, i: int)
    requires n <= |doc.leituras|
    ensures At(ReadingsDefects(doc, ids, parse, n), i) ==
      (if 0 <= i < n then ReadingDefects(doc, ids, parse, i) else [])
  {
    var parts := Contributions(doc, ids, parse);
    ContributionsIndexed(doc, ids, parse);
    assert Indexed(parts[..n]) by {
      forall k, p | 0 <= k < n && 0 <= p < |parts[..n][k]| ensures Position(parts[..n][k][p]) == k {
        assert parts[..n][k] == parts[k];
      }
    }
    AtFlatten(parts[..n], i);
    if 0 <= i < n {
      assert parts[..n][i] == parts[i];
    }
  }

  /** The report splits reading by reading: what it says about reading `i`
      is that reading's own contribution, in push order. */
  lemma DefectsOfReading(doc: Document, parse: Parser, i: int)
    requires 0 <= i < |doc.leituras|
    ensures At(ClientDefects(doc, parse), i) == ReadingDefects(doc, Ids(doc.sensores), parse, i)
  {
    var ids := Ids(doc.sensores);
    AtAppend(Header(doc), ReadingsDefects(doc, ids, parse, |doc.leituras|), i);
    AtReadingsDefects(doc, ids, parse, |doc.leituras|, i);
  }

  /** The "no sensor" defect is reported exactly when no sensor is
      declared, and then it opens the list. */
  lemma NoSensorsReported(doc: Document, parse: Parser)
    ensures NoSensors in ClientDefects(doc, parse) <==> |doc.sensores| == 0
    ensures |doc.sensores| == 0 ==> ClientDefects(doc, parse)[0] == NoSensors
  {
    var ids := Ids(doc.sensores);
    var rest := ReadingsDefects(doc, ids, parse, |doc.leituras|);
    ReadingsDefectsOrdered(doc, ids, parse, |doc.leituras|);
    assert forall p :: 0 <= p < |rest| ==> rest[p] != NoSensors;
  }

  /** Defect indices never decrease along the report. */
  lemma PositionsNonDecreasing(doc: Document, parse: Parser)
    ensures forall p, q :: 0 <= p < q < |ClientDefects(doc, parse)| ==>
      Position(ClientDefects(doc, parse)[p]) <= Position(ClientDefects(doc, parse)[q])
  {
    var ids := Ids(doc.sensores);
    var rest := ReadingsDefects(doc, ids, parse, |doc.leituras|);
    ReadingsDefectsOrdered(doc, ids, parse, |doc.leituras|);
    var all := ClientDefects(doc, parse);
    if |Header(doc)| == 1 {
      forall p, q | 0 <= p < q < |all| ensures Position(all[p]) <= Position(all[q]) {
        assert all[q] == rest[q - 1];
        if p > 0 { assert all[p] == rest[p - 1]; }
      }
    }
  }

  /** A reading gets a reference defect exactly when its `sensorRef` is
      absent, empty or undeclared; the defect shows 'nulo' for the first two. */
  lemma ReferenceDefect(doc: Document, parse: Parser, i: int)
    requires 0 <= i < |doc.leituras|
    ensures var ref := doc.leituras[i].sensorRef;
      BadRef(i, Shown(ref)) in ClientDefects(doc, parse) <==> RefInvalid(ref, Ids(doc.sensores))
    ensures forall s :: BadRef(i, s) in ClientDefects(doc, parse) ==> s == Shown(doc.leituras[i].sensorRef)
    ensures forall s :: BadRef(i, s) in ClientDefects(doc, parse) ==> (s.None? <==> doc.leituras[i].sensorRef in {None, Some("")})
  {
    DefectsOfReading(doc, parse, i);
    var ref := doc.leituras[i].sensorRef;
    AtMember(ClientDefects(doc, parse), i, BadRef(i, Shown(ref)));
    forall s | BadRef(i, s) in ClientDefects(doc, parse) ensures s == Shown(ref) {
      AtMember(ClientDefects(doc, parse), i, BadRef(i, s));
    }
  }

  /** A reading without `<valor>` gets exactly one "missing" defect, last
      among its defects, after its reference defect if any, and no range
      defect. */
  lemma MissingValorDefect(doc: Document, parse: Parser, i: int)
    requires 0 <= i < |doc.leituras|
    ensures MissingValor(i) in ClientDefects(doc, parse) <==> doc.leituras[i].valor.None?
    ensures doc.leituras[i].valor.None? ==>
      At(ClientDefects(doc, parse), i) ==
        (if RefInvalid(doc.leituras[i].sensorRef, Ids(doc.sensores))
         then [BadRef(i, Shown(doc.leituras[i].sensorRef)), MissingValor(i)]
         else [MissingValor(i)])
  {
    DefectsOfReading(doc, parse, i);
    AtMember(ClientDefects(doc, parse), i, MissingValor(i));
  }

  /** Whether the report holds a range defect about reading `i`. */
  predicate HasRangeDefect(ds: seq<Defect>, i: int) {
    exists d :: d in ds && d.OutOfRange? && d.index == i
  }

  /** A reading with a `<valor>` gets a range defect exactly when the
      category of the first sensor matching its reference has a rule and
      the value is NaN or outside the inclusive bounds. */
  lemma RangeDefect(doc: Document, parse: Parser, i: int)
    requires 0 <= i < |doc.leituras| && doc.leituras[i].valor.Some?
    ensures var r := doc.leituras[i];
      var rule := RuleFor(TipoOf(doc, r.sensorRef));
      HasRangeDefect(ClientDefects(doc, parse), i) <==> rule.Some? && Violates(parse(r.valor.value), rule.value)
  {
    var all := ClientDefects(doc, parse);
    DefectsOfReading(doc, parse, i);
    if HasRangeDefect(all, i) {
      var d :| d in all && d.OutOfRange? && d.index == i;
      AtMember(all, i, d);
    } else {
      var mine := ReadingDefects(doc, Ids(doc.sensores), parse, i);
      if |mine| > 0 {
        AtMember(all, i, mine[|mine| - 1]);
      }
    }
  }

  /** A reading the validator has nothing to say about. */
  predicate ReadingClean(doc: Document, parse: Parser, i: int)
    requires 0 <= i < |doc.leituras|
  {
    var r := doc.leituras[i];
    && !RefInvalid(r.sensorRef, Ids(doc.sensores))
    && r.valor.Some?
    && (RuleFor(TipoOf(doc, r.sensorRef)).Some? ==>
          !Violates(parse(r.valor.value), RuleFor(TipoOf(doc, r.sensorRef)).value))
  }

  /** The report is empty exactly when some sensor is declared and every
      reading is clean: nothing is skipped after the first problem. */
  lemma AcceptedIffAllClean(doc: Document, parse: Parser)
    ensures ClientDefects(doc, parse) == [] <==>
      |doc.sensores| > 0 && forall i :: 0 <= i < |doc.leituras| ==> ReadingClean(doc, parse, i)
  {
    var all := ClientDefects(doc, parse);
    NoSensorsReported(doc, parse);
    if all == [] {
      forall i | 0 <= i < |doc.leituras| ensures ReadingClean(doc, parse, i) {
        DefectsOfReading(doc, parse, i);
      }
    } else if |doc.sensores| > 0 {
      var ids := Ids(doc.sensores);
      ReadingsDefectsOrdered(doc, ids, parse, |doc.leituras|);
      var d := all[0];
      assert all == ReadingsDefects(doc, ids, parse, |doc.leituras|);
      var i := Position(d);
      AtMember(all, i, d);
      DefectsOfReading(doc, parse, i);
      assert !ReadingClean(doc, parse, i);
    }
  }
}

=== FILE: consulta.dfy ===
/** The query endpoint `handle_consulta`: every stored `.xml` file's
    readings, each joined with its sensor's category, unit and location,
    optionally restricted to one sensor id. */
module Consulta {
  import opened Wrappers
  import opened Estufa
  import ServerRules

  /** A file of the data directory, in listing order: its name and the
      parsed document, `None` when parsing fails. */
  datatype StoredFile = StoredFile(name: string, doc: Option<Document>)

  /** What a reading's sensor contributes to its record. */
  datatype SensorInfo = SensorInfo(tipo: Option<string>, unidade: Option<string>, localizacao: string)

  /** One entry of `leituras` in the reply. */
  datatype Record = Record(
    sensorId: Option<string>,
    info: SensorInfo,
    dataHora: Option<string>,
    valor: real,
    arquivoOrigem: string)

  /** The JSON reply, or the 500 reply when any step raised. */
  datatype Reply =
    | Results(totalResultados: nat, filtroSensorId: Option<string>, leituras: seq<Record>)
    | QueryError(code: string)

  const QueryErrorCode := "QUERY_ERROR"

  /** The triple used for a reading whose reference matches no sensor. */
  const Unknown := SensorInfo(Some("desconhecido"), Some("N/A"), "")

  predicate EndsWith(s: string, suffix: string) {
    |suffix| <= |s| && s[|s| - |suffix|..] == suffix
  }

  /** `if sensor_id_filtro:` - an absent or empty filter selects everything. */
  predicate FilterActive(filtro: Option<string>) {
    filtro.Some? && filtro.value != ""
  }

  /** The predicate `[@sensorRef='…']` adds to the reading XPath: the
      attribute must be present and equal to the filter. */
  predicate Selected(filtro: Option<string>, r: Reading) {
    !FilterActive(filtro) || r.sensorRef == filtro
  }

  /** The readings the XPath query returns, in document order. */
  function Select(leituras: seq<Reading>, filtro: Option<string>): (sel: seq<Reading>)
    ensures |sel| <= |leituras|
    ensures forall r :: r in sel <==> r in leituras && Selected(filtro, r)
    ensures !FilterActive(filtro) ==> sel == leituras
  {
    if leituras == [] then []
    else (if Selected(filtro, leituras[0]) then [leituras[0]] else []) + Select(leituras[1..], filtro)
  }

  /** The XPath's verdict on one reading. */
  function SelectOne(r: Reading, filtro: Option<string>): seq<Reading> {
    if Selected(filtro, r) then [r] else []
  }

  lemma SelectCons(r: Reading, rest: seq<Reading>, filtro: Option<string>)
    ensures Select([r] + rest, filtro) == SelectOne(r, filtro) + Select(rest, filtro)
  {
    assert ([r] + rest)[0] == r;
    assert ([r] + rest)[1..] == rest;
  }

  /** The query keeps each selected reading as often as the document holds
      it and drops every other one: no node is repeated or lost. */
  lemma {:induction false} SelectMultiplicity(leituras: seq<Reading>, filtro: Option<string>, r: Reading)
    ensures multiset(Select(leituras, filtro))[r] == if Selected(filtro, r) then multiset(leituras)[r] else 0
  {
    if leituras != [] {
      var x, tail := leituras[0], leituras[1..];
      SelectMultiplicity(tail, filtro, r);
      assert leituras == [x] + tail;
      SelectCons(x, tail, filtro);
      assert multiset(Select(leituras, filtro)) == multiset(SelectOne(x, filtro)) + multiset(Select(tail, filtro));
      assert multiset(leituras) == multiset([x]) + multiset(tail);
    }
  }

  /** The query keeps document order: selecting from two consecutive parts
      of a document is selecting from each part in turn. */
  lemma {:induction false} SelectAppend(a: seq<Reading>, b: seq<Reading>, filtro: Option<string>)
    ensures Select(a + b, filtro) == Select(a, filtro) + Select(b, filtro)
  {
    if a == [] {
      assert a + b == b;
    } else {
      var x, tail := a[0], a[1..];
      assert a == [x] + tail;
      assert a + b == [x] + (tail + b);
      SelectCons(x, tail + b, filtro);
      SelectCons(x, tail, filtro);
      SelectAppend(tail, b, filtro);
      assert SelectOne(x, filtro) + (Select(tail, filtro) + Select(b, filtro))
          == (SelectOne(x, filtro) + Select(tail, filtro)) + Select(b, filtro);
    }
  }

  /** `sensores_map.get(sensor_ref, default)`. */
  function InfoFor(sensores: map<Option<string>, Sensor>, ref: Option<string>): SensorInfo {
    if ref in sensores then SensorInfo(sensores[ref].tipo, sensores[ref].unidade, sensores[ref].localizacao)
    else Unknown
  }

  /** The record built for reading `r` of file `name`. */
  predicate Describes(sensores: map<Option<string>, Sensor>, name: string, parse: Parser, r: Reading, rec: Record) {
    && rec.sensorId == r.sensorRef
    && (r.sensorRef !in sensores ==> rec.info == Unknown)
    && (r.sensorRef in sensores ==>
          rec.info == SensorInfo(sensores[r.sensorRef].tipo, sensores[r.sensorRef].unidade, sensores[r.sensorRef].localizacao))
    && rec.dataHora == r.dataHora
    && r.valor.Some? && parse(r.valor.value) == Some(rec.valor)
    && rec.arquivoOrigem == name
  }

  /** The value `float(findtext("valor"))` computes, `None` when it raises. */
  predicate ValorParses(parse: Parser, r: Reading) {
    r.valor.Some? && parse(r.valor.value).Some?
  }

  /** The records of the selected readings of one file, `None` as soon as
      one value cannot be converted. */
  function RecordsOf(sensores: map<Option<string>, Sensor>, sel: seq<Reading>, name: string, parse: Parser): (rs: Option<seq<Record>>)
    ensures rs.Some? <==> forall k :: 0 <= k < |sel| ==> ValorParses(parse, sel[k])
    ensures rs.Some? ==> |rs.value| == |sel|
    ensures rs.Some? ==> forall k :: 0 <= k < |sel| ==> Describes(sensores, name, parse, sel[k], rs.value[k])
  {
    if sel == [] then Some([])
    else
      var r := sel[0];
      if !ValorParses(parse, r) then None
      else
        match RecordsOf(sensores, sel[1..], name, parse)
        case None => None
        case Some(rest) =>
          var rec := Record(r.sensorRef, InfoFor(sensores, r.sensorRef), r.dataHora, parse(r.valor.value).value, name);
          Some([rec] + rest)
  }

  /** A `.xml` file makes the query raise: it does not parse, or one of its
      selected readings has a value that does not convert. */
  predicate FileFails(file: StoredFile, filtro: Option<string>, parse: Parser) {
    && EndsWith(file.name, ".xml")
    && (file.doc.None? ||
        var sel := Select(file.doc.value.leituras, filtro);
        exists k :: 0 <= k < |sel| && !ValorParses(parse, sel[k]))
  }

  /** One file's contribution: nothing for a name not ending in `.xml`,
      `None` when the file does not parse or a value does not convert. */
  function FileRecords(file: StoredFile, filtro: Option<string>, parse: Parser): (rs: Option<seq<Record>>)
    ensures rs.Some? ==> forall rec :: rec in rs.value ==> rec.arquivoOrigem == file.name && EndsWith(file.name, ".xml")
    ensures rs.Some? && FilterActive(filtro) ==> forall rec :: rec in rs.value ==> rec.sensorId == filtro
    ensures !EndsWith(file.name, ".xml") ==> rs == Some([])
    ensures rs.None? <==> FileFails(file, filtro, parse)
    ensures rs.Some? && EndsWith(file.name, ".xml") ==>
      file.doc.Some? && |rs.value| == |Select(file.doc.value.leituras, filtro)|
  {
    if !EndsWith(file.name, ".xml") then Some([])
    else
      match file.doc
      case None => None
      case Some(doc) =>
        var sel := Select(doc.leituras, filtro);
        var rs := RecordsOf(ById(doc.sensores), sel, file.name, parse);
        assert rs.Some? ==> forall rec :: rec in rs.value ==>
          rec.arquivoOrigem == file.name && (FilterActive(filtro) ==> rec.sensorId == filtro) by {
          if rs.Some? {
            forall rec | rec in rs.value
              ensures rec.arquivoOrigem == file.name && (FilterActive(filtro) ==> rec.sensorId == filtro)
            {
              var k :| 0 <= k < |rs.value| && rs.value[k] == rec;
              assert sel[k] in sel;
              assert Describes(ById(doc.sensores), file.name, parse, sel[k], rec);
            }
          }
        }
        rs
  }

  /** What `Collect` promises of a non-empty listing, given the first
      file's records and what it promises of the rest. */
  lemma CollectExtends(files: seq<StoredFile>, filtro: Option<string>, parse: Parser, first: seq<Record>, rest: seq<Record>)
    requires files != [] && FileRecords(files[0], filtro, parse) == Some(first)
    requires forall k :: 0 <= k < |files[1..]| ==> FileRecords(files[1..][k], filtro, parse).Some?
    requires forall rec :: rec in rest ==>
      EndsWith(rec.arquivoOrigem, ".xml") && exists k :: 0 <= k < |files[1..]| && files[1..][k].name == rec.arquivoOrigem
    requires FilterActive(filtro) ==> forall rec :: rec in rest ==> rec.sensorId == filtro
    ensures forall k :: 0 <= k < |files| ==> FileRecords(files[k], filtro, parse).Some?
    ensures forall rec :: rec in first + rest ==>
      EndsWith(rec.arquivoOrigem, ".xml") && exists k :: 0 <= k < |files| && files[k].name == rec.arquivoOrigem
    ensures FilterActive(filtro) ==> forall rec :: rec in first + rest ==> rec.sensorId == filtro
  {
    forall k | 1 <= k < |files| ensures FileRecords(files[k], filtro, parse).Some? {
      assert files[k] == files[1..][k - 1];
    }
    forall rec | rec in first + rest
      ensures EndsWith(rec.arquivoOrigem, ".xml") && exists k :: 0 <= k < |files| && files[k].name == rec.arquivoOrigem
    {
      if rec in first {
        assert files[0].name == rec.arquivoOrigem;
      } else {
        var k :| 0 <= k < |files[1..]| && files[1..][k].name == rec.arquivoOrigem;
        assert files[k + 1].name == rec.arquivoOrigem;
      }
    }
  }

  /** All files in listing order; any exception aborts the whole query. */
  function Collect(files: seq<StoredFile>, filtro: Option<string>, parse: Parser): (rs: Option<seq<Record>>)
    ensures rs.Some? <==> forall k :: 0 <= k < |files| ==> FileRecords(files[k], filtro, parse).Some?
    ensures rs.Some? ==> forall rec :: rec in rs.value ==>
      EndsWith(rec.arquivoOrigem, ".xml") && exists k :: 0 <= k < |files| && files[k].name == rec.arquivoOrigem
    ensures rs.Some? && FilterActive(filtro) ==> forall rec :: rec in rs.value ==> rec.sensorId == filtro
  {
    if files == [] then Some([])
    else
      match FileRecords(files[0], filtro, parse)
      case None => None
      case Some(first) =>
        match Collect(files[1..], filtro, parse)
        case None =>
          assert exists k :: 1 <= k < |files| && !FileRecords(files[k], filtro, parse).Some? by {
            var k :| 0 <= k < |files[1..]| && !FileRecords(files[1..][k], filtro, parse).Some?;
            assert files[1..][k] == files[k + 1];
          }
          None
        case Some(rest) =>
          CollectExtends(files, filtro, parse, first, rest);
          Some(first + rest)
  }

  /** A `.xml` file that does not fail contributes the records of its
      selected readings, joined with its own sensors, in document order. */
  lemma FileRecordsJoin(file: StoredFile, filtro: Option<string>, parse: Parser)
    requires EndsWith(file.name, ".xml") && !FileFails(file, filtro, parse)
    ensures file.doc.Some?
    ensures FileRecords(file, filtro, parse) ==
      RecordsOf(ById(file.doc.value.sensores), Select(file.doc.value.leituras, filtro), file.name, parse)
  {
  }

  /** `rec` is the record of one selected reading of `file`, joined with
      that file's own sensors. */
  predicate RecordOfFile(file: StoredFile, filtro: Option<string>, parse: Parser, rec: Record) {
    && file.doc.Some?
    && rec.arquivoOrigem == file.name
    && var sel := Select(file.doc.value.leituras, filtro);
       exists i :: 0 <= i < |sel| && Describes(ById(file.doc.value.sensores), file.name, parse, sel[i], rec)
  }

  /** Every record a file contributes is one of its selected readings,
      joined with its own sensors. */
  lemma FileRecordsDescribe(file: StoredFile, filtro: Option<string>, parse: Parser)
    requires FileRecords(file, filtro, parse).Some?
    ensures forall rec :: rec in FileRecords(file, filtro, parse).value ==> RecordOfFile(file, filtro, parse, rec)
  {
    var rs := FileRecords(file, filtro, parse).value;
    if EndsWith(file.name, ".xml") {
      FileRecordsJoin(file, filtro, parse);
      var doc := file.doc.value;
      var sel := Select(doc.leituras, filtro);
      forall rec | rec in rs ensures RecordOfFile(file, filtro, parse, rec) {
        var i :| 0 <= i < |rs| && rs[i] == rec;
        assert Describes(ById(doc.sensores), file.name, parse, sel[i], rec);
      }
    }
  }

  /** A listing of one file yields exactly that file's records. */
  lemma CollectSingle(file: StoredFile, filtro: Option<string>, parse: Parser)
    ensures Collect([file], filtro, parse) == FileRecords(file, filtro, parse)
  {
    assert [file][0] == file;
    assert [file][1..] == [];
    match FileRecords(file, filtro, parse)
    case None =>
    case Some(first) => assert first + [] == first;
  }

  /** Two partial results one after the other: the records of both, or
      failure when either failed. */
  function Join(x: Option<seq<Record>>, y: Option<seq<Record>>): Option<seq<Record>> {
    if x.Some? && y.Some? then Some(x.value + y.value) else None
  }

  lemma JoinAssoc(x: Option<seq<Record>>, y: Option<seq<Record>>, z: Option<seq<Record>>)
    ensures Join(x, Join(y, z)) == Join(Join(x, y), z)
  {
    if x.Some? && y.Some? && z.Some? {
      assert x.value + (y.value + z.value) == (x.value + y.value) + z.value;
    }
  }

  /** A non-empty listing: the first file's records, then the rest's. */
  lemma CollectCons(files: seq<StoredFile>, filtro: Option<string>, parse: Parser)
    requires files != []
    ensures Collect(files, filtro, parse) == Join(FileRecords(files[0], filtro, parse), Collect(files[1..], filtro, parse))
  {
  }

  /** The walk keeps listing order: the records of two consecutive parts
      of the listing are the first part's records followed by the
      second's, and the walk fails exactly when either part does. */
  lemma {:induction false} CollectAppend(a: seq<StoredFile>, b: seq<StoredFile>, filtro: Option<string>, parse: Parser)
    ensures Collect(a + b, filtro, parse) == Join(Collect(a, filtro, parse), Collect(b, filtro, parse))
  {
    if a == [] {
      assert a + b == b;
      assert Collect(a, filtro, parse) == Some([]);
      match Collect(b, filtro, parse)
      case None =>
      case Some(y) => assert [] + y == y;
    } else {
      var head := FileRecords(a[0], filtro, parse);
      assert (a + b)[0] == a[0] && (a + b)[1..] == a[1..] + b;
      CollectCons(a + b, filtro, parse);
      CollectAppend(a[1..], b, filtro, parse);
      CollectCons(a, filtro, parse);
      JoinAssoc(head, Collect(a[1..], filtro, parse), Collect(b, filtro, parse));
    }
  }

  /** Every record of a successful walk is a record of one of the listed
      files. */
  lemma {:induction false} CollectDescribes(files: seq<StoredFile>, filtro: Option<string>, parse: Parser)
    requires Collect(files, filtro, parse).Some?
    ensures forall rec :: rec in Collect(files, filtro, parse).value ==>
      exists k :: 0 <= k < |files| && RecordOfFile(files[k], filtro, parse, rec)
  {
    if files != [] {
      var first := FileRecords(files[0], filtro, parse).value;
      var rest := Collect(files[1..], filtro, parse).value;
      FileRecordsDescribe(files[0], filtro, parse);
      CollectDescribes(files[1..], filtro, parse);
      forall rec | rec in Collect(files, filtro, parse).value
        ensures exists k :: 0 <= k < |files| && RecordOfFile(files[k], filtro, parse, rec)
      {
        if rec in first {
          assert RecordOfFile(files[0], filtro, parse, rec);
        } else {
          assert rec in rest;
          var k :| 0 <= k < |files[1..]| && RecordOfFile(files[1..][k], filtro, parse, rec);
          assert files[1..][k] == files[k + 1];
        }
      }
    }
  }

  /** The endpoint: the count of the results, the filter echoed back, the
      results; or the error reply when any step raised. */
  function HandleConsulta(files: seq<StoredFile>, filtro: Option<string>, parse: Parser): (reply: Reply)
    ensures reply.Results? ==> reply.totalResultados == |reply.leituras| && reply.filtroSensorId == filtro
    ensures reply.Results? ==> forall rec :: rec in reply.leituras ==> EndsWith(rec.arquivoOrigem, ".xml")
    ensures reply.Results? && FilterActive(filtro) ==> forall rec :: rec in reply.leituras ==> rec.sensorId == filtro
    ensures reply.QueryError? <==> exists k :: 0 <= k < |files| && FileRecords(files[k], filtro, parse).None?
    ensures reply.QueryError? ==> reply.code == QueryErrorCode
    ensures reply.Results? ==> forall rec :: rec in reply.leituras ==>
      exists k :: 0 <= k < |files| && RecordOfFile(files[k], filtro, parse, rec)
    ensures reply.Results? ==> Collect(files, filtro, parse) == Some(reply.leituras)
  {
    match Collect(files, filtro, parse)
    case None => QueryError(QueryErrorCode)
    case Some(rs) =>
      CollectDescribes(files, filtro, parse);
      Results(|rs|, filtro, rs)
  }

  /** The number of readings the query selects, counted file by file
      independently of how records are built. */
  function SelectedCount(files: seq<StoredFile>, filtro: Option<string>): nat {
    if files == [] then 0
    else
      var here := if EndsWith(files[0].name, ".xml") && files[0].doc.Some? then |Select(files[0].doc.value.leituras, filtro)| else 0;
      here + SelectedCount(files[1..], filtro)
  }

  lemma {:induction false} CollectCount(files: seq<StoredFile>, filtro: Option<string>, parse: Parser)
    requires Collect(files, filtro, parse).Some?
    ensures |Collect(files, filtro, parse).value| == SelectedCount(files, filtro)
  {
    if files != [] {
      CollectCount(files[1..], filtro, parse);
    }
  }

  /** `totalResultados` is the number of readings the XPath selects over
      all `.xml` files: one record per selected reading, none dropped or
      duplicated. */
  lemma TotalIsSelectedCount(files: seq<StoredFile>, filtro: Option<string>, parse: Parser)
    requires HandleConsulta(files, filtro, parse).Results?
    ensures HandleConsulta(files, filtro, parse).totalResultados == SelectedCount(files, filtro)
  {
    CollectCount(files, filtro, parse);
  }

  /** A reading that passed the server's business rules has a value that
      converts. */
  lemma PassedReadingParses(doc: Document, parse: Parser, r: Reading)
    requires ServerRules.ValidarRegrasNegocio(doc, parse).Passed?
    requires r in doc.leituras
    ensures ValorParses(parse, r)
  {
    var j :| 0 <= j < |doc.leituras| && doc.leituras[j] == r;
    assert ServerRules.Passes(doc, ById(doc.sensores), parse, j);
  }

  /** When every `.xml` file of the directory parses and was accepted by
      the business rules, the query answers with results for any filter. */
  lemma AcceptedFilesAreQueryable(files: seq<StoredFile>, filtro: Option<string>, parse: Parser)
    requires forall k :: 0 <= k < |files| && EndsWith(files[k].name, ".xml") ==>
      files[k].doc.Some? && ServerRules.ValidarRegrasNegocio(files[k].doc.value, parse).Passed?
    ensures HandleConsulta(files, filtro, parse).Results?
  {
    forall k | 0 <= k < |files| ensures FileRecords(files[k], filtro, parse).Some? {
      if EndsWith(files[k].name, ".xml") {
        var doc := files[k].doc.value;
        var sel := Select(doc.leituras, filtro);
        forall i | 0 <= i < |sel| ensures ValorParses(parse, sel[i]) {
          PassedReadingParses(doc, parse, sel[i]);
        }
      }
    }
  }

  /** A single `.xml` file that does not parse aborts the whole query,
      whatever the other files hold and whatever the filter. */
  lemma OneBadFileSpoilsTheQuery(files: seq<StoredFile>, filtro: Option<string>, parse: Parser, k: nat)
    requires k < |files| && EndsWith(files[k].name, ".xml") && files[k].doc.None?
    ensures HandleConsulta(files, filtro, parse) == QueryError(QueryErrorCode)
  {
    assert FileRecords(files[k], filtro, parse).None?;
  }

  /** A value that does not convert aborts the whole query when its reading
      is selected. Only selected readings reach the conversion, so a bad
      value on a reading the filter excludes does not. */
  lemma OneBadSelectedValueSpoilsTheQuery(files: seq<StoredFile>, filtro: Option<string>, parse: Parser, k: nat, r: Reading)
    requires k < |files| && EndsWith(files[k].name, ".xml") && files[k].doc.Some?
    requires r in files[k].doc.value.leituras && Selected(filtro, r) && !ValorParses(parse, r)
    ensures HandleConsulta(files, filtro, parse) == QueryError(QueryErrorCode)
  {
    var sel := Select(files[k].doc.value.leituras, filtro);
    assert r in sel;
    var i :| 0 <= i < |sel| && sel[i] == r;
    assert FileFails(files[k], filtro, parse);
  }

  /** Conversely, a file whose selected readings all convert contributes
      its records, whatever its other readings hold. */
  lemma ExcludedValuesDoNotMatter(file: StoredFile, filtro: Option<string>, parse: Parser)
    requires file.doc.Some?
    requires forall r :: r in file.doc.value.leituras && Selected(filtro, r) ==> ValorParses(parse, r)
    ensures FileRecords(file, filtro, parse).Some?
  {
    var sel := Select(file.doc.value.leituras, filtro);
    forall r | r in sel ensures ValorParses(parse, r) {
      var k :| 0 <= k < |sel| && sel[k] == r;
    }
  }
}

=== FILE: dashboard.dfy ===
/** The dashboard's three views of a query result: category means and a
    count, the ten most recent readings, and the temperature series. */
module Dashboard {
  import opened Wrappers
  import Estufa

  /** A reading as the dashboard receives it, with `dataHora` already
      turned into an instant (milliseconds since the epoch). */
  datatype Entry = Entry(
    sensorId: Option<string>,
    tipo: Option<string>,
    valor: real,
    unidade: Option<string>,
    instante: int,
    arquivoOrigem: string)

  // ---------------------------------------------------------------------
  // Indicators

  /** The three categories the dashboard shows. */
  const Temperatura := "temperatura"
  const UmidadeSolo := "umidadeSolo"
  const Luminosidade := "luminosidade"

  /** `leituras.filter(l => l.tipo === tipo)`. */
  function OfTipo(es: seq<Entry>, tipo: string): (r: seq<Entry>)
    ensures |r| <= |es|
    ensures forall k :: 0 <= k < |r| ==> r[k].tipo == Some(tipo) && r[k] in es
    ensures forall e :: e in es && e.tipo == Some(tipo) ==> e in r
  {
    if es == [] then []
    else
      var rest := OfTipo(es[1..], tipo);
      assert forall k :: 0 <= k < |rest| ==> rest[k] in es by {
        forall k | 0 <= k < |rest| ensures rest[k] in es {
          assert rest[k] in es[1..];
        }
      }
      assert forall e :: e in es ==> e == es[0] || e in es[1..];
      if es[0].tipo == Some(tipo) then [es[0]] + rest else rest
  }

  /** The filter keeps something exactly when some entry has the category. */
  lemma OfTipoEmpty(es: seq<Entry>, tipo: string)
    ensures OfTipo(es, tipo) == [] <==> forall e :: e in es ==> e.tipo != Some(tipo)
  {
    var r := OfTipo(es, tipo);
    if r != [] {
      assert r[0] in es;
    }
  }

  /** `.map(l => l.valor)`. */
  function Valores(es: seq<Entry>): (vs: seq<real>)
    ensures |vs| == |es|
    ensures forall k :: 0 <= k < |es| ==> vs[k] == es[k].valor
  {
    if es == [] then [] else [es[0].valor] + Valores(es[1..])
  }

  function Sum(xs: seq<real>): real {
    if xs == [] then 0.0 else xs[0] + Sum(xs[1..])
  }

  /** `media`: the arithmetic mean, `None` for the "-" shown when there is
      no value. */
  function Media(xs: seq<real>): (m: Option<real>)
    ensures m.None? <==> xs == []
    ensures m.Some? ==> m.value * (|xs| as real) == Sum(xs)
  {
    if xs == [] then None else Some(Sum(xs) / (|xs| as real))
  }

  /** The four indicator cards. */
  datatype Kpis = Kpis(temperatura: Option<real>, umidadeSolo: Option<real>, luminosidade: Option<real>, total: nat)

  /** `renderizarKPIs`: one mean per displayed category, and the number of
      readings of every category together. */
  function RenderizarKpis(es: seq<Entry>): (k: Kpis)
    ensures k.total == |es|
    ensures k.temperatura.None? <==> forall e :: e in es ==> e.tipo != Some(Temperatura)
    ensures k.umidadeSolo.None? <==> forall e :: e in es ==> e.tipo != Some(UmidadeSolo)
    ensures k.luminosidade.None? <==> forall e :: e in es ==> e.tipo != Some(Luminosidade)
    ensures k.temperatura == Media(Valores(OfTipo(es, Temperatura)))
    ensures k.umidadeSolo == Media(Valores(OfTipo(es, UmidadeSolo)))
    ensures k.luminosidade == Media(Valores(OfTipo(es, Luminosidade)))
  {
    OfTipoEmpty(es, Temperatura);
    OfTipoEmpty(es, UmidadeSolo);
    OfTipoEmpty(es, Luminosidade);
    Kpis(
      Media(Valores(OfTipo(es, Temperatura))),
      Media(Valores(OfTipo(es, UmidadeSolo))),
      Media(Valores(OfTipo(es, Luminosidade))),
      |es|)
  }

  lemma {:induction false} SumWithin(xs: seq<real>, lo: real, hi: real)
    requires forall k :: 0 <= k < |xs| ==> lo <= xs[k] <= hi
    ensures lo * (|xs| as real) <= Sum(xs) <= hi * (|xs| as real)
    decreases |xs|
  {
    if xs != [] {
      SumWithin(xs[1..], lo, hi);
    }
  }

  /** A mean lies between any bounds its values lie between. */
  lemma MediaWithin(xs: seq<real>, lo: real, hi: real)
    requires xs != []
    requires forall k :: 0 <= k < |xs| ==> lo <= xs[k] <= hi
    ensures lo <= Media(xs).value <= hi
  {
    SumWithin(xs, lo, hi);
    QuotientWithin(Sum(xs), |xs| as real, lo, hi);
  }

  lemma QuotientWithin(total: real, n: real, lo: real, hi: real)
    requires n > 0.0 && lo * n <= total <= hi * n
    ensures lo <= total / n <= hi
  {
    assert total / n - lo == (total - lo * n) / n;
    assert hi - total / n == (hi * n - total) / n;
  }

  /** The mean shown for a ruled category stays within that category's
      range whenever the readings it averages do, which is what the server
      enforces before storing a document. */
  lemma KpiWithinRange(es: seq<Entry>, tipo: string)
    requires Estufa.Limit(tipo).Some?
    requires forall e :: e in es && e.tipo == Some(tipo) ==> Estufa.InRange(e.valor, Estufa.Limit(tipo).value)
    requires exists e :: e in es && e.tipo == Some(tipo)
    ensures var m := Media(Valores(OfTipo(es, tipo)));
      m.Some? && Estufa.InRange(m.value, Estufa.Limit(tipo).value)
  {
    var r := Estufa.Limit(tipo).value;
    var sel := OfTipo(es, tipo);
    var vs := Valores(sel);
    forall k | 0 <= k < |vs| ensures r.min <= vs[k] <= r.max {
      assert sel[k] in multiset(es);
    }
    MediaWithin(vs, r.min, r.max);
  }

  // ---------------------------------------------------------------------
  // Ordering by instant

  /** The sort key: the instant, negated when the most recent comes first. */
  function Key(e: Entry, newestFirst: bool): int {
    if newestFirst then -e.instante else e.instante
  }

  predicate SortedBy(es: seq<Entry>, newestFirst: bool) {
    forall i, j :: 0 <= i < j < |es| ==> Key(es[i], newestFirst) <= Key(es[j], newestFirst)
  }

  /** Oldest first. */
  predicate Chronological(es: seq<Entry>) {
    forall i, j :: 0 <= i < j < |es| ==> es[i].instante <= es[j].instante
  }

  /** Most recent first. */
  predicate NewestFirst(es: seq<Entry>) {
    forall i, j :: 0 <= i < j < |es| ==> es[i].instante >= es[j].instante
  }

  /** A sorted sequence stays sorted behind an element whose key is no
      larger than any of its keys. */
  lemma SortedCons(x: Entry, rest: seq<Entry>, newestFirst: bool)
    requires SortedBy(rest, newestFirst)
    requires forall y :: y in multiset(rest) ==> Key(x, newestFirst) <= Key(y, newestFirst)
    ensures SortedBy([x] + rest, newestFirst)
  {
    var r := [x] + rest;
    forall i, j | 0 <= i < j < |r| ensures Key(r[i], newestFirst) <= Key(r[j], newestFirst) {
      if i == 0 {
        assert r[j] == rest[j - 1];
        assert rest[j - 1] in multiset(rest);
      } else {
        assert r[i] == rest[i - 1] && r[j] == rest[j - 1];
      }
    }
  }

  /** The head of a sorted sequence has the smallest key. */
  lemma HeadSmallest(es: seq<Entry>, newestFirst: bool)
    requires SortedBy(es, newestFirst) && es != []
    ensures forall y :: y in multiset(es[1..]) ==> Key(es[0], newestFirst) <= Key(y, newestFirst)
  {
    forall y | y in multiset(es[1..]) ensures Key(es[0], newestFirst) <= Key(y, newestFirst) {
      var j :| 0 <= j < |es[1..]| && es[1..][j] == y;
      assert es[1 + j] == y;
    }
  }

  /** Puts `e` in front of the first element whose key is not smaller,
      so that it stays ahead of the entries it preceded in the input. */
  function Insert(e: Entry, es: seq<Entry>, newestFirst: bool): seq<Entry> {
    if es == [] || Key(e, newestFirst) <= Key(es[0], newestFirst) then [e] + es
    else [es[0]] + Insert(e, es[1..], newestFirst)
  }

  lemma {:induction false} InsertPermutes(e: Entry, es: seq<Entry>, newestFirst: bool)
    ensures multiset(Insert(e, es, newestFirst)) == multiset(es) + multiset{e}
  {
    if es != [] && Key(e, newestFirst) > Key(es[0], newestFirst) {
      InsertPermutes(e, es[1..], newestFirst);
      assert es == [es[0]] + es[1..];
    }
  }

  lemma {:induction false} InsertSorted(e: Entry, es: seq<Entry>, newestFirst: bool)
    requires SortedBy(es, newestFirst)
    ensures SortedBy(Insert(e, es, newestFirst), newestFirst)
  {
    if es == [] || Key(e, newestFirst) <= Key(es[0], newestFirst) {
      SortedCons(e, es, newestFirst);
    } else {
      var head := es[0];
      var rest := Insert(e, es[1..], newestFirst);
      InsertSorted(e, es[1..], newestFirst);
      InsertPermutes(e, es[1..], newestFirst);
      HeadSmallest(es, newestFirst);
      forall y | y in multiset(rest) ensures Key(head, newestFirst) <= Key(y, newestFirst) {
        assert y == e || y in multiset(es[1..]);
      }
      SortedCons(head, rest, newestFirst);
    }
  }

  /** The stable sort `Array.prototype.sort` performs with a comparator on
      instants. */
  function Sort(es: seq<Entry>, newestFirst: bool): (r: seq<Entry>)
    ensures SortedBy(r, newestFirst)
    ensures multiset(r) == multiset(es)
    ensures |r| == |es|
  {
    if es == [] then []
    else
      var rest := Sort(es[1..], newestFirst);
      InsertSorted(es[0], rest, newestFirst);
      InsertPermutes(es[0], rest, newestFirst);
      assert es == [es[0]] + es[1..];
      Insert(es[0], rest, newestFirst)
  }

  // ---------------------------------------------------------------------
  // Recent readings table

  const TableRows := 10

  function Min(a: int, b: int): int {
    if a <= b then a else b
  }

  /** A prefix of a newest-first sequence is newest-first, and nothing
      after it is more recent than anything in it. */
  lemma PrefixOfSorted(sorted: seq<Entry>, n: nat)
    requires SortedBy(sorted, true) && n <= |sorted|
    ensures NewestFirst(sorted[..n])
    ensures forall x, y :: x in sorted[..n] && y in sorted[n..] ==> y.instante <= x.instante
  {
    forall x, y | x in sorted[..n] && y in sorted[n..] ensures y.instante <= x.instante {
      var i :| 0 <= i < n && sorted[..n][i] == x;
      var j :| 0 <= j < |sorted| - n && sorted[n..][j] == y;
      assert Key(sorted[i], true) <= Key(sorted[n + j], true);
    }
  }

  /** `leituras.sort(newest first).slice(0, 10)`: at most ten readings,
      most recent first, each one from the query. */
  function Recentes(es: seq<Entry>): (r: seq<Entry>)
    ensures |r| == Min(TableRows, |es|)
    ensures NewestFirst(r)
    ensures multiset(r) <= multiset(es)
  {
    var sorted := Sort(es, true);
    var n := Min(TableRows, |es|);
    PrefixOfSorted(sorted, n);
    assert sorted == sorted[..n] + sorted[n..];
    sorted[..n]
  }

  /** No reading left out of the table is more recent than one shown. */
  lemma RecentesAreMostRecent(es: seq<Entry>)
    ensures forall x, y :: x in Recentes(es) && y in multiset(es) - multiset(Recentes(es)) ==> y.instante <= x.instante
  {
    var sorted := Sort(es, true);
    var n := Min(TableRows, |es|);
    PrefixOfSorted(sorted, n);
    assert sorted == sorted[..n] + sorted[n..];
    assert multiset(es) - multiset(sorted[..n]) == multiset(sorted[n..]);
  }

  /** The table body: the placeholder row, or one row per recent reading. */
  datatype Table = NothingToShow | NoDataFound | Rows(rows: seq<Entry>)

  /** `renderizarTabela`. */
  function RenderizarTabela(es: seq<Entry>): (t: Table)
    ensures t.NothingToShow? <==> es == []
    ensures t.Rows? ==> 1 <= |t.rows| <= TableRows && multiset(t.rows) <= multiset(es)
    ensures es != [] ==> t == Rows(Recentes(es))
  {
    var recentes := Recentes(es);
    if |recentes| == 0 then NothingToShow else Rows(recentes)
  }

  // ---------------------------------------------------------------------
  // Temperature chart

  /** The temperature readings, oldest first. */
  function SerieTemperatura(es: seq<Entry>): (s: seq<Entry>)
    ensures Chronological(s)
    ensures multiset(s) == multiset(OfTipo(es, Temperatura))
    ensures |s| == |OfTipo(es, Temperatura)|
  {
    var s := Sort(OfTipo(es, Temperatura), false);
    assert forall i, j :: 0 <= i < j < |s| ==> Key(s[i], false) <= Key(s[j], false);
    s
  }

  /** Every point of the series is a temperature reading of the query, and
      every temperature reading of the query is in the series. */
  lemma SerieIsTemperatures(es: seq<Entry>)
    ensures forall k :: 0 <= k < |SerieTemperatura(es)| ==>
      SerieTemperatura(es)[k].tipo == Some(Temperatura) && SerieTemperatura(es)[k] in es
    ensures forall e :: e in es && e.tipo == Some(Temperatura) ==> e in SerieTemperatura(es)
  {
    var s := SerieTemperatura(es);
    var f := OfTipo(es, Temperatura);
    forall k | 0 <= k < |s| ensures s[k].tipo == Some(Temperatura) && s[k] in es {
      assert s[k] in multiset(f);
      var i :| 0 <= i < |f| && f[i] == s[k];
    }
    forall e | e in es && e.tipo == Some(Temperatura) ensures e in s {
      assert e in multiset(f);
    }
  }

  /** The chart's labels and data points. */
  datatype Grafico = Grafico(labels: seq<string>, data: seq<real>)

  /** `renderizarGrafico`: the series projected to (time label, value);
      `rotulo` stands for `toLocaleTimeString`. */
  function RenderizarGrafico(es: seq<Entry>, rotulo: int -> string): (g: Grafico)
    ensures |g.labels| == |g.data| == |SerieTemperatura(es)|
    ensures forall k :: 0 <= k < |g.data| ==>
      g.data[k] == SerieTemperatura(es)[k].valor && g.labels[k] == rotulo(SerieTemperatura(es)[k].instante)
    ensures g.data == [] <==> forall e :: e in es ==> e.tipo != Some(Temperatura)
  {
    var s := SerieTemperatura(es);
    OfTipoEmpty(es, Temperatura);
    Grafico(seq(|s|, k requires 0 <= k < |s| => rotulo(s[k].instante)), Valores(s))
  }

  // ---------------------------------------------------------------------
  // Loading the dashboard

  /** What the dashboard shows; `grafico` is `None` when the chart is not
      redrawn. */
  datatype View = View(kpis: Kpis, tabela: Table, grafico: Option<Grafico>)

  /** `carregarDashboard` after a successful query. A zero total shows the
      sentinels, a zero count and the "no data" row without touching the
      chart. Otherwise the table sorts the readings in place, newest first,
      so the chart is computed from that reordered sequence. */
  function CarregarDashboard(totalResultados: int, leituras: seq<Entry>, rotulo: int -> string): (v: View)
    ensures totalResultados == 0 ==> v.kpis == RenderizarKpis([]) && v.tabela == NoDataFound && v.grafico.None?
    ensures totalResultados != 0 ==>
      v.kpis == RenderizarKpis(leituras) && v.tabela == RenderizarTabela(leituras) && v.grafico.Some?
  {
    if totalResultados == 0 then View(Kpis(None, None, None, 0), NoDataFound, None)
    else View(RenderizarKpis(leituras), RenderizarTabela(leituras), Some(RenderizarGrafico(Sort(leituras, true), rotulo)))
  }

  /** How often the category filter keeps an entry: as often as the input
      holds it when the category matches, never otherwise. */
  lemma {:induction false} OfTipoMultiplicity(es: seq<Entry>, tipo: string, e: Entry)
    ensures multiset(OfTipo(es, tipo))[e] == if e.tipo == Some(tipo) then multiset(es)[e] else 0
  {
    if es != [] {
      OfTipoMultiplicity(es[1..], tipo, e);
      assert es == [es[0]] + es[1..];
      assert multiset(es)[e] == multiset([es[0]])[e] + multiset(es[1..])[e];
      var head := if es[0].tipo == Some(tipo) then [es[0]] else [];
      assert OfTipo(es, tipo) == head + OfTipo(es[1..], tipo);
      assert multiset(OfTipo(es, tipo))[e] == multiset(head)[e] + multiset(OfTipo(es[1..], tipo))[e];
    }
  }

  /** Filtering commutes with reordering. */
  lemma OfTipoPermutation(a: seq<Entry>, b: seq<Entry>, tipo: string)
    requires multiset(a) == multiset(b)
    ensures multiset(OfTipo(a, tipo)) == multiset(OfTipo(b, tipo))
  {
    forall e ensures multiset(OfTipo(a, tipo))[e] == multiset(OfTipo(b, tipo))[e] {
      OfTipoMultiplicity(a, tipo, e);
      OfTipoMultiplicity(b, tipo, e);
    }
  }

  /** Drawing the chart from the readings the table has already reordered
      still plots exactly the temperature readings of the query, oldest
      first. */
  lemma ChartAfterInPlaceSort(leituras: seq<Entry>, rotulo: int -> string)
    requires leituras != []
    ensures var v := CarregarDashboard(|leituras|, leituras, rotulo);
      var s := SerieTemperatura(Sort(leituras, true));
      v.grafico == Some(RenderizarGrafico(Sort(leituras, true), rotulo))
      && Chronological(s)
      && multiset(s) == multiset(OfTipo(leituras, Temperatura))
  {
    OfTipoPermutation(Sort(leituras, true), leituras, Temperatura);
  }
}

=== FILE: decimal.dfy ===
/** Decimal rendering of natural numbers, as Python's f-string and
    JavaScript's template literals print a non-negative integer, together
    with its inverse. */
module Decimal {

  predicate IsDigit(c: char) {
    '0' <= c <= '9'
  }

  predicate AllDigits(s: string) {
    forall k :: 0 <= k < |s| ==> IsDigit(s[k])
  }

  function DigitValue(c: char): (d: nat)
    requires IsDigit(c)
    ensures d < 10
  {
    (c as int) - ('0' as int)
  }

  function DigitChar(d: nat): (c: char)
    requires d < 10
    ensures IsDigit(c) && DigitValue(c) == d
  {
    (('0' as int) + d) as char
  }

  /** The shortest decimal numeral of `n`, most significant digit first. */
  function Show(n: nat): (s: string)
    ensures 1 <= |s|
    ensures AllDigits(s)
    ensures 1 < |s| ==> s[0] != '0'
    decreases n
  {
    if n < 10 then [DigitChar(n)] else Show(n / 10) + [DigitChar(n % 10)]
  }

  /** The value of a numeral; the empty numeral reads as zero. */
  function Read(s: string): nat
    requires AllDigits(s)
    decreases |s|
  {
    if s == [] then 0 else Read(s[..|s| - 1]) * 10 + DigitValue(s[|s| - 1])
  }

  /** Reading back a rendered number gives the number. */
  lemma {:induction false} ReadShow(n: nat)
    ensures Read(Show(n)) == n
    decreases n
  {
    if n >= 10 {
      var s := Show(n);
      assert s[..|s| - 1] == Show(n / 10);
      ReadShow(n / 10);
    }
  }

  /** Distinct numbers render as distinct numerals. */
  lemma ShowInjective(m: nat, n: nat)
    requires Show(m) == Show(n)
    ensures m == n
  {
    ReadShow(m);
    ReadShow(n);
  }
}

=== FILE: estufa.dfy ===
/** The parsed greenhouse document (`<estufa>`) shared by the client-side
    and server-side validators and by the query join: sensors, readings,
    the range table, and the two ways the program resolves a sensor id
    (first declaration wins in the browser, last declaration wins in
    Python). */
module Estufa {
  import opened Wrappers

  /** A `<sensor>` under `<sensores>`. An absent attribute is `None`;
      `localizacao` is the text of the `<localizacao>` child, "" when absent. */
  datatype Sensor = Sensor(
    id: Option<string>,
    tipo: Option<string>,
    unidade: Option<string>,
    localizacao: string)

  /** A `<leitura>` under `<leituras>`. `valor` is the text of its first
      `<valor>` child ("" for an empty one), `None` when it has none. */
  datatype Reading = Reading(
    sensorRef: Option<string>,
    dataHora: Option<string>,
    valor: Option<string>)

  datatype Document = Document(sensores: seq<Sensor>, leituras: seq<Reading>)

  /** An inclusive range `[min, max]`. */
  datatype Range = Range(min: real, max: real)

  /** A number parser (`parseFloat` in the browser, `float` in Python);
      `None` stands for NaN and for a parse failure. */
  type Parser = string -> Option<real>

  /** The four categories that have a range rule. */
  const RuledTipos: set<string> := {"temperatura", "umidadeAr", "umidadeSolo", "luminosidade"}

  /** The range table, identical in the client and the server. */
  function Limit(tipo: string): (r: Option<Range>)
    ensures r.Some? <==> tipo in RuledTipos
    ensures r.Some? ==> r.value.min < r.value.max
  {
    if tipo == "temperatura" then Some(Range(-10.0, 60.0))
    else if tipo == "umidadeAr" then Some(Range(0.0, 100.0))
    else if tipo == "umidadeSolo" then Some(Range(0.0, 100.0))
    else if tipo == "luminosidade" then Some(Range(0.0, 200000.0))
    else None
  }

  /** The rule for a category that may be missing: no category, no rule. */
  function RuleFor(tipo: Option<string>): Option<Range> {
    if tipo.None? then None else Limit(tipo.value)
  }

  predicate InRange(v: real, r: Range) {
    r.min <= v <= r.max
  }

  /** The set of ids the sensors declare (an absent id included as `None`),
      built by adding each sensor's id in document order. */
  function Ids(sensores: seq<Sensor>): (ids: set<Option<string>>)
    ensures forall j :: 0 <= j < |sensores| ==> sensores[j].id in ids
    ensures |ids| == 0 <==> |sensores| == 0
    decreases |sensores|
  {
    if sensores == [] then {}
    else
      var n := |sensores| - 1;
      var front := Ids(sensores[..n]);
      assert forall j :: 0 <= j < n ==> sensores[..n][j] == sensores[j];
      front + {sensores[n].id}
  }

  /** Every id in the set is declared by some sensor. */
  lemma {:induction false} IdsDeclared(sensores: seq<Sensor>, key: Option<string>) returns (j: nat)
    requires key in Ids(sensores)
    ensures j < |sensores| && sensores[j].id == key
    decreases |sensores|
  {
    var n := |sensores| - 1;
    if sensores[n].id == key {
      j := n;
    } else {
      j := IdsDeclared(sensores[..n], key);
      assert sensores[..n][j] == sensores[j];
    }
  }

  /** No two sensors share an id. */
  predicate UniqueIds(sensores: seq<Sensor>) {
    forall i, j :: 0 <= i < j < |sensores| ==> sensores[i].id != sensores[j].id
  }

  /** Sensor `j` is the last one declaring its id. */
  predicate LastOfId(sensores: seq<Sensor>, j: int)
    requires 0 <= j < |sensores|
  {
    forall k :: j < k < |sensores| ==> sensores[k].id != sensores[j].id
  }

  /** Sensor `j` is the first one declaring `key`. */
  predicate FirstOfId(sensores: seq<Sensor>, j: int, key: Option<string>)
    requires 0 <= j < |sensores|
  {
    sensores[j].id == key && forall k :: 0 <= k < j ==> sensores[k].id != key
  }

  lemma IdsCons(sensores: seq<Sensor>)
    requires sensores != []
    ensures Ids(sensores) == Ids(sensores[1..]) + {sensores[0].id}
  {
    forall k | k in Ids(sensores) ensures k in Ids(sensores[1..]) + {sensores[0].id} {
      var j := IdsDeclared(sensores, k);
      if j > 0 { assert sensores[1..][j - 1] == sensores[j]; }
    }
    forall k | k in Ids(sensores[1..]) ensures k in Ids(sensores) {
      var j := IdsDeclared(sensores[1..], k);
      assert sensores[1..][j] == sensores[j + 1];
    }
  }

  /** A Python dict comprehension keyed by sensor id: every declared id is
      a key, and a later declaration overwrites an earlier one. */
  function ById(sensores: seq<Sensor>): (m: map<Option<string>, Sensor>)
    ensures m.Keys == Ids(sensores)
    decreases |sensores|
  {
    if sensores == [] then map[]
    else
      var n := |sensores| - 1;
      ById(sensores[..n])[sensores[n].id := sensores[n]]
  }

  /** The dict maps each id to the last sensor declaring it. */
  lemma {:induction false} ByIdLastWins(sensores: seq<Sensor>, j: int)
    requires 0 <= j < |sensores| && LastOfId(sensores, j)
    ensures ById(sensores)[sensores[j].id] == sensores[j]
    decreases |sensores|
  {
    var n := |sensores| - 1;
    if j < n {
      var front := sensores[..n];
      assert front[j] == sensores[j];
      assert LastOfId(front, j) by {
        forall k | j < k < n ensures front[k].id != front[j].id {
          assert front[k] == sensores[k];
        }
      }
      ByIdLastWins(front, j);
    }
  }

  /** A CSS selector `sensor[id="key"]` run by `querySelector`: the first
      sensor declaring `key`, if any. */
  function FirstById(sensores: seq<Sensor>, key: Option<string>): (r: Option<Sensor>)
    ensures r.None? <==> key !in Ids(sensores)
    ensures forall j :: 0 <= j < |sensores| && FirstOfId(sensores, j, key) ==> r == Some(sensores[j])
    decreases |sensores|
  {
    if sensores == [] then None
    else if sensores[0].id == key then Some(sensores[0])
    else
      var r := FirstById(sensores[1..], key);
      IdsCons(sensores);
      assert forall j :: 0 < j < |sensores| && FirstOfId(sensores, j, key) ==> FirstOfId(sensores[1..], j - 1, key);
      r
  }

  /** With unique ids the browser's first-wins lookup and Python's
      last-wins dict agree on every id. */
  lemma FirstWinsAgreesWithLastWins(sensores: seq<Sensor>, key: Option<string>)
    requires UniqueIds(sensores)
    ensures FirstById(sensores, key) == (if key in ById(sensores) then Some(ById(sensores)[key]) else None)
  {
    if key in Ids(sensores) {
      var j := IdsDeclared(sensores, key);
      assert FirstOfId(sensores, j, key);
      assert LastOfId(sensores, j);
      ByIdLastWins(sensores, j);
    }
  }
}

=== FILE: example_document.dfy ===
/** The built-in example document of the submit screen (three sensors,
    one reading each) and the variations of it that exercise each kind of
    defect. */
module ExampleDocument {
  import opened Wrappers
  import opened Estufa
  import opened ClientValidator
  import opened ServerRules

  const TNorte := Sensor(Some("tNorte"), Some("temperatura"), Some("C"), "Parede Norte, 1.5m altura")
  const USoloB1 := Sensor(Some("uSoloB1"), Some("umidadeSolo"), Some("%"), "Bancada 1, Vaso 3")
  const LuzTeto := Sensor(Some("luzTeto"), Some("luminosidade"), Some("lux"), "Acima da Bancada 1")
  const When := Some("2025-10-30T10:30:00-03:00")

  /** The document with the third reading's value replaced by `luz`. */
  function WithLuz(luz: string): Document {
    Document(
      [TNorte, USoloB1, LuzTeto],
      [Reading(Some("tNorte"), When, Some("24.5")),
       Reading(Some("uSoloB1"), When, Some("55.2")),
       Reading(Some("luzTeto"), When, Some(luz))])
  }

  /** The example as shipped. */
  const Example := WithLuz("115000")

  /** The parser reads the example's numbers as the decimals they spell. */
  predicate ReadsExampleNumbers(parse: Parser) {
    && parse("24.5") == Some(24.5)
    && parse("55.2") == Some(55.2)
    && parse("115000") == Some(115000.0)
  }

  lemma IdsOfTwo(a: Sensor, b: Sensor)
    ensures Ids([a, b]) == {a.id, b.id}
  {
    assert [a, b][..1] == [a];
    assert [a][..0] == [];
  }

  lemma IdsOfThree(a: Sensor, b: Sensor, c: Sensor)
    ensures Ids([a, b, c]) == {a.id, b.id, c.id}
  {
    assert [a, b, c][..2] == [a, b];
    IdsOfTwo(a, b);
  }

  lemma FirstByIdOfTwo(a: Sensor, b: Sensor, k: Option<string>)
    ensures FirstById([a, b], k) == if a.id == k then Some(a) else if b.id == k then Some(b) else None
  {
    assert [a, b][1..] == [b];
    assert [b][1..] == [];
  }

  lemma FirstByIdOfThree(a: Sensor, b: Sensor, c: Sensor, k: Option<string>)
    ensures FirstById([a, b, c], k) ==
      if a.id == k then Some(a) else if b.id == k then Some(b) else if c.id == k then Some(c) else None
  {
    assert [a, b, c][1..] == [b, c];
    FirstByIdOfTwo(b, c, k);
  }

  lemma ReadingsDefectsOfThree(doc: Document, ids: set<Option<string>>, parse: Parser)
    requires |doc.leituras| == 3
    ensures ReadingsDefects(doc, ids, parse, 3) ==
      ReadingDefects(doc, ids, parse, 0) + ReadingDefects(doc, ids, parse, 1) + ReadingDefects(doc, ids, parse, 2)
  {
    assert Contributions(doc, ids, parse)[..0] == [];
    ReadingsDefectsSnoc(doc, ids, parse, 0);
    ReadingsDefectsSnoc(doc, ids, parse, 1);
    ReadingsDefectsSnoc(doc, ids, parse, 2);
  }

  /** Each reading of a `WithLuz` document resolves to its own sensor, on
      both sides. */
  lemma WithLuzResolves(luz: string)
    ensures Ids(WithLuz(luz).sensores) == {Some("tNorte"), Some("uSoloB1"), Some("luzTeto")}
    ensures TipoOf(WithLuz(luz), Some("tNorte")) == Some("temperatura")
    ensures TipoOf(WithLuz(luz), Some("uSoloB1")) == Some("umidadeSolo")
    ensures TipoOf(WithLuz(luz), Some("luzTeto")) == Some("luminosidade")
    ensures ServerTipo(ById(WithLuz(luz).sensores), Some("tNorte")) == Some("temperatura")
    ensures ServerTipo(ById(WithLuz(luz).sensores), Some("uSoloB1")) == Some("umidadeSolo")
    ensures ServerTipo(ById(WithLuz(luz).sensores), Some("luzTeto")) == Some("luminosidade")
  {
    var ss := WithLuz(luz).sensores;
    IdsOfThree(TNorte, USoloB1, LuzTeto);
    assert UniqueIds(ss);
    FirstByIdOfThree(TNorte, USoloB1, LuzTeto, Some("tNorte"));
    FirstByIdOfThree(TNorte, USoloB1, LuzTeto, Some("uSoloB1"));
    FirstByIdOfThree(TNorte, USoloB1, LuzTeto, Some("luzTeto"));
    FirstWinsAgreesWithLastWins(ss, Some("tNorte"));
    FirstWinsAgreesWithLastWins(ss, Some("uSoloB1"));
    FirstWinsAgreesWithLastWins(ss, Some("luzTeto"));
  }

  /** The temperature and soil readings of a `WithLuz` document are
      clean on the client and pass on the server. */
  lemma FirstTwoReadingsFine(luz: string, parse: Parser)
    requires ReadsExampleNumbers(parse)
    ensures ReadingDefects(WithLuz(luz), Ids(WithLuz(luz).sensores), parse, 0) == []
    ensures ReadingDefects(WithLuz(luz), Ids(WithLuz(luz).sensores), parse, 1) == []
    ensures Passes(WithLuz(luz), ById(WithLuz(luz).sensores), parse, 0)
    ensures Passes(WithLuz(luz), ById(WithLuz(luz).sensores), parse, 1)
  {
    var doc := WithLuz(luz);
    WithLuzResolves(luz);
    var ids := Ids(doc.sensores);
    var r0 := doc.leituras[0];
    assert !RefInvalid(r0.sensorRef, ids);
    assert RuleFor(TipoOf(doc, r0.sensorRef)) == Some(Range(-10.0, 60.0));
    assert parse(r0.valor.value) == Some(24.5);
    var r1 := doc.leituras[1];
    assert !RefInvalid(r1.sensorRef, ids);
    assert RuleFor(TipoOf(doc, r1.sensorRef)) == Some(Range(0.0, 100.0));
    assert parse(r1.valor.value) == Some(55.2);
  }

  /** The luminosity reading of a `WithLuz` document: clean when the value
      is within [0, 200000], a single range defect otherwise. */
  lemma LuminosityReading(luz: string, parse: Parser, v: real)
    requires parse(luz) == Some(v)
    ensures ReadingDefects(WithLuz(luz), Ids(WithLuz(luz).sensores), parse, 2) ==
      if 0.0 <= v <= 200000.0 then []
      else [OutOfRange(2, Some(v), Some("luzTeto"), "luminosidade", Range(0.0, 200000.0))]
    ensures Passes(WithLuz(luz), ById(WithLuz(luz).sensores), parse, 2) <==> 0.0 <= v <= 200000.0
  {
    var doc := WithLuz(luz);
    WithLuzResolves(luz);
    var r2 := doc.leituras[2];
    assert !RefInvalid(r2.sensorRef, Ids(doc.sensores));
    assert RuleFor(TipoOf(doc, r2.sensorRef)) == Some(Range(0.0, 200000.0));
  }

  /** The example passes the browser's check. */
  lemma ExampleAcceptedByClient(parse: Parser)
    requires ReadsExampleNumbers(parse)
    ensures ClientDefects(Example, parse) == []
  {
    FirstTwoReadingsFine("115000", parse);
    LuminosityReading("115000", parse, 115000.0);
    ReadingsDefectsOfThree(Example, Ids(Example.sensores), parse);
  }

  /** The example passes the server's business rules. */
  lemma ExampleAcceptedByServer(parse: Parser)
    requires ReadsExampleNumbers(parse)
    ensures ValidarRegrasNegocio(Example, parse) == Passed
  {
    FirstTwoReadingsFine("115000", parse);
    LuminosityReading("115000", parse, 115000.0);
  }

  /** Raising the luminosity to 250000 gives exactly one range defect on
      the client, with the bounds [0, 200000], and a server rejection
      whose XPath names the third reading. */
  lemma LuminosityTooHigh(parse: Parser)
    requires ReadsExampleNumbers(parse) && parse("250000") == Some(250000.0)
    ensures ClientDefects(WithLuz("250000"), parse) ==
      [OutOfRange(2, Some(250000.0), Some("luzTeto"), "luminosidade", Range(0.0, 200000.0))]
    ensures ValidarRegrasNegocio(WithLuz("250000"), parse).Rejected?
    ensures XPathPosition(ValidarRegrasNegocio(WithLuz("250000"), parse).error.xpath) == Some(3)
  {
    var doc := WithLuz("250000");
    FirstTwoReadingsFine("250000", parse);
    LuminosityReading("250000", parse, 250000.0);
    ReadingsDefectsOfThree(doc, Ids(doc.sensores), parse);
    var m := ById(doc.sensores);
    assert ScanFrom(doc, m, parse, 0) == ScanFrom(doc, m, parse, 2);
  }

  /** Dropping the `uSoloB1` declaration but keeping its reading gives
      exactly one reference defect, at that reading; the other two
      readings are unaffected. */
  lemma UndeclaredSoilSensor(parse: Parser)
    requires ReadsExampleNumbers(parse)
    ensures ClientDefects(Document([TNorte, LuzTeto], Example.leituras), parse) == [BadRef(1, Some("uSoloB1"))]
  {
    var doc := Document([TNorte, LuzTeto], Example.leituras);
    IdsOfTwo(TNorte, LuzTeto);
    FirstByIdOfTwo(TNorte, LuzTeto, Some("tNorte"));
    FirstByIdOfTwo(TNorte, LuzTeto, Some("uSoloB1"));
    FirstByIdOfTwo(TNorte, LuzTeto, Some("luzTeto"));
    var ids := Ids(doc.sensores);
    ReadingsDefectsOfThree(doc, ids, parse);
    var r0 := doc.leituras[0];
    assert !RefInvalid(r0.sensorRef, ids);
    assert RuleFor(TipoOf(doc, r0.sensorRef)) == Some(Range(-10.0, 60.0));
    assert parse(r0.valor.value) == Some(24.5);
    assert ReadingDefects(doc, ids, parse, 0) == [];
    var r1 := doc.leituras[1];
    assert RefInvalid(r1.sensorRef, ids);
    assert TipoOf(doc, r1.sensorRef) == None;
    assert ReadingDefects(doc, ids, parse, 1) == [BadRef(1, Some("uSoloB1"))];
    var r2 := doc.leituras[2];
    assert !RefInvalid(r2.sensorRef, ids);
    assert RuleFor(TipoOf(doc, r2.sensorRef)) == Some(Range(0.0, 200000.0));
    assert parse(r2.valor.value) == Some(115000.0);
    assert ReadingDefects(doc, ids, parse, 2) == [];
  }
}

=== FILE: server_rules.dfy ===
/** The server's business-rule check `validar_regras_negocio`: it runs
    after schema validation, stops at the first offending reading and
    reports it with a 1-based XPath. */
module ServerRules {
  import opened Wrappers
  import opened Estufa
  import Decimal

  /** Why a reading was rejected: `float` failed on its text, or the value
      lies outside its category's range. */
  datatype Cause =
    | Unparseable(text: string)
    | OutOfBounds(valor: real, sensorRef: Option<string>, tipo: string, range: Range)

  /** The error dict: `code`, the cause behind `message`, and `xpath`. */
  datatype RuleError = RuleError(code: string, cause: Cause, xpath: string)

  /** `(True, None)`, `(False, error)`, or an exception escaping the
      function: `.text` on the `None` that `find("valor")` returns for a
      reading without `<valor>` raises before the `try`. */
  datatype Verdict = Passed | Rejected(error: RuleError) | Crashed(index: nat)

  const BusinessRuleError := "BUSINESS_RULE_ERROR"
  const XPathPrefix := "/estufa/leituras/leitura["
  const XPathSuffix := "]/valor"

  /** The XPath of the `<valor>` of reading `i` (0-based): positions in
      XPath count from 1. */
  function ValorXPath(i: nat): string {
    XPathPrefix + Decimal.Show(i + 1) + XPathSuffix
  }

  /** The 1-based position an error XPath names, if it has that shape. */
  function XPathPosition(x: string): Option<nat> {
    if |x| < |XPathPrefix| + |XPathSuffix| then None
    else
      var digits := x[|XPathPrefix| .. |x| - |XPathSuffix|];
      if x[..|XPathPrefix|] == XPathPrefix && x[|x| - |XPathSuffix|..] == XPathSuffix
         && |digits| > 0 && Decimal.AllDigits(digits)
      then Some(Decimal.Read(digits))
      else None
  }

  /** The XPath of reading `i` names position `i + 1`, so distinct
      readings get distinct XPaths. */
  lemma XPathRoundTrip(i: nat)
    ensures XPathPosition(ValorXPath(i)) == Some(i + 1)
  {
    var x := ValorXPath(i);
    var digits := Decimal.Show(i + 1);
    assert x[..|XPathPrefix|] == XPathPrefix;
    assert x[|x| - |XPathSuffix|..] == XPathSuffix;
    assert x[|XPathPrefix| .. |x| - |XPathSuffix|] == digits;
    Decimal.ReadShow(i + 1);
  }

  /** `sensores.get(sensor_ref)` followed by the `tipo`: the dict is keyed
      by the id attribute, so an absent reference finds a sensor without id. */
  function ServerTipo(sensores: map<Option<string>, Sensor>, ref: Option<string>): Option<string> {
    if ref in sensores then sensores[ref].tipo else None
  }

  /** What the `try` block raises for a reading whose `<valor>` text is
      `text`: `float` runs first, then the range comparison if the
      category has a rule. */
  function Offence(sensores: map<Option<string>, Sensor>, parse: Parser, r: Reading, text: string): Option<Cause> {
    match parse(text)
    case None => Some(Unparseable(text))
    case Some(v) =>
      var tipo := ServerTipo(sensores, r.sensorRef);
      match RuleFor(tipo)
      case None => None
      case Some(range) => if InRange(v, range) then None else Some(OutOfBounds(v, r.sensorRef, tipo.value, range))
  }

  /** Reading `j` passes the loop body without raising. */
  predicate Passes(doc: Document, sensores: map<Option<string>, Sensor>, parse: Parser, j: int)
    requires 0 <= j < |doc.leituras|
  {
    doc.leituras[j].valor.Some? && Offence(sensores, parse, doc.leituras[j], doc.leituras[j].valor.value).None?
  }

  /** Where the loop from index `i` on stops. */
  datatype Stop = Finished | Offending(index: nat, cause: Cause) | NoValor(index: nat)

  /** The `for i, leitura in enumerate(leituras)` loop from index `i`. */
  function ScanFrom(doc: Document, sensores: map<Option<string>, Sensor>, parse: Parser, i: nat): (s: Stop)
    requires i <= |doc.leituras|
    ensures s.Finished? <==> forall j :: i <= j < |doc.leituras| ==> Passes(doc, sensores, parse, j)
    ensures s.Offending? ==>
      && i <= s.index < |doc.leituras|
      && doc.leituras[s.index].valor.Some?
      && Offence(sensores, parse, doc.leituras[s.index], doc.leituras[s.index].valor.value) == Some(s.cause)
      && forall j :: i <= j < s.index ==> Passes(doc, sensores, parse, j)
    ensures s.NoValor? ==>
      && i <= s.index < |doc.leituras|
      && doc.leituras[s.index].valor.None?
      && forall j :: i <= j < s.index ==> Passes(doc, sensores, parse, j)
    decreases |doc.leituras| - i
  {
    if i == |doc.leituras| then Finished
    else
      var r := doc.leituras[i];
      match r.valor
      case None =>
        assert !Passes(doc, sensores, parse, i);
        NoValor(i)
      case Some(text) =>
        match Offence(sensores, parse, r, text)
        case Some(cause) =>
          assert !Passes(doc, sensores, parse, i);
          Offending(i, cause)
        case None => ScanFrom(doc, sensores, parse, i + 1)
  }

  /** The first reading the loop stops at, if any. */
  function Scan(doc: Document, parse: Parser): Stop {
    ScanFrom(doc, ById(doc.sensores), parse, 0)
  }

  /** `validar_regras_negocio`: pass when every reading passes, otherwise
      the verdict about the first reading that does not. */
  function ValidarRegrasNegocio(doc: Document, parse: Parser): (v: Verdict)
    ensures v.Passed? <==> forall j :: 0 <= j < |doc.leituras| ==> Passes(doc, ById(doc.sensores), parse, j)
    ensures v.Rejected? ==>
      && Scan(doc, parse).Offending?
      && v.error.code == BusinessRuleError
      && v.error.cause == Scan(doc, parse).cause
      && XPathPosition(v.error.xpath) == Some(Scan(doc, parse).index + 1)
    ensures v.Crashed? ==> Scan(doc, parse) == NoValor(v.index)
  {
    var stop := ScanFrom(doc, ById(doc.sensores), parse, 0);
    assert stop == Scan(doc, parse);
    match stop
    case Finished => Passed
    case Offending(i, cause) =>
      XPathRoundTrip(i);
      assert !Passes(doc, ById(doc.sensores), parse, i);
      Rejected(RuleError(BusinessRuleError, cause, ValorXPath(i)))
    case NoValor(i) =>
      assert !Passes(doc, ById(doc.sensores), parse, i);
      Crashed(i)
  }

  /** Range bounds are inclusive: a value equal to `min` or `max` of its
      category is never the cause of a rejection. */
  lemma BoundsInclusive(sensores: map<Option<string>, Sensor>, parse: Parser, r: Reading, text: string)
    requires RuleFor(ServerTipo(sensores, r.sensorRef)).Some?
    requires var range := RuleFor(ServerTipo(sensores, r.sensorRef)).value;
      parse(text) == Some(range.min) || parse(text) == Some(range.max)
    ensures Offence(sensores, parse, r, text).None?
  {
  }

  /** A reading whose reference is undeclared, or whose sensor's category
      has no rule, is only rejected when its text does not parse. */
  lemma UnruledOnlyParsed(sensores: map<Option<string>, Sensor>, parse: Parser, r: Reading, text: string)
    requires RuleFor(ServerTipo(sensores, r.sensorRef)).None?
    ensures Offence(sensores, parse, r, text).Some? <==> parse(text).None?
  {
  }

  /** With several sensors declaring one id, the category of the last of
      them decides the range check. */
  lemma LastDeclarationDecides(doc: Document, j: nat)
    requires j < |doc.sensores| && LastOfId(doc.sensores, j)
    ensures ServerTipo(ById(doc.sensores), doc.sensores[j].id) == doc.sensores[j].tipo
  {
    ByIdLastWins(doc.sensores, j);
  }
}

=== FILE: submit_gate.dfy ===
/** The submit view's state: the text being edited, the last text that
    passed client validation (`ultimoXMLValido`), whether the send button
    is disabled, and the notice on screen. Parsing the XML and talking to
    the server are parameters. */
module SubmitGate {
  import opened Wrappers
  import Estufa
  import ClientValidator

  /** The notice `setStatus` shows. */
  datatype Notice =
    | Idle
    | ExampleImported
    | EmptyInput
    | SyntaxError
    | ValidationErrors(defects: seq<ClientValidator.Defect>)
    | ValidClient
    | NotValidated
    | Sending
    | Saved(id: string)
    | ServerError(code: string)
    | NetworkError

  /** `pending` counts the POSTs whose reply has not arrived yet. */
  datatype Gate = Gate(input: string, ultimoXMLValido: string, sendDisabled: bool, pending: nat, notice: Notice)

  /** What the server answers to a POST of a document. */
  datatype Outcome = Created(id: string) | ErrorReply(code: string) | Unreachable

  /** A user action, or the arrival of the answer to one pending POST.
      The send handler awaits its `fetch`, so the click and the reply are
      two events with any other events in between. */
  datatype Event = Edit(text: string) | ImportExample | Validate | Click | Reply(outcome: Outcome)

  /** The browser's XML parser (`None` when it reports a `parsererror`),
      the number parser the validator uses, and the bundled example text. */
  datatype Config = Config(
    parseXml: string -> Option<Estufa.Document>,
    parseNum: Estufa.Parser,
    exemplo: string)

  /** The characters `String.prototype.trim` removes: white space and line
      terminators. */
  predicate IsJsSpace(c: char) {
    c == '\t' || c == '\n' || c == '\U{B}' || c == '\U{C}' || c == '\r' || c == ' '
    || c == '\U{A0}' || c == '\U{1680}' || ('\U{2000}' <= c <= '\U{200A}')
    || c == '\U{2028}' || c == '\U{2029}' || c == '\U{202F}' || c == '\U{205F}'
    || c == '\U{3000}' || c == '\U{FEFF}'
  }

  /** `!xmlText.trim()`. */
  predicate Blank(s: string) {
    forall k :: 0 <= k < |s| ==> IsJsSpace(s[k])
  }

  /** The text parses and the client validator finds no defect in it. */
  predicate Accepts(cfg: Config, text: string) {
    cfg.parseXml(text).Some? && ClientValidator.ClientDefects(cfg.parseXml(text).value, cfg.parseNum) == []
  }

  /** The promise the gate keeps: the stored text is empty or was
      accepted, and the send button is only enabled while one is stored. */
  predicate GateOk(cfg: Config, g: Gate) {
    (g.ultimoXMLValido == "" || Accepts(cfg, g.ultimoXMLValido))
    && (!g.sendDisabled ==> g.ultimoXMLValido != "")
  }

  /** The page as loaded: nothing stored and the send button disabled. */
  const Initial := Gate("", "", true, 0, Idle)

  /** The validate button's handler. */
  function OnValidate(cfg: Config, g: Gate): (r: Gate)
    ensures r.input == g.input && r.pending == g.pending
    ensures r.ultimoXMLValido == g.ultimoXMLValido || (r.ultimoXMLValido == g.input && Accepts(cfg, g.input))
    ensures Blank(g.input) ==> r == g.(notice := EmptyInput)
    ensures !Blank(g.input) ==> (r.sendDisabled <==> !Accepts(cfg, g.input))
    ensures !Blank(g.input) && Accepts(cfg, g.input) ==> r.ultimoXMLValido == g.input && r.notice == ValidClient
  {
    if Blank(g.input) then g.(notice := EmptyInput)
    else match cfg.parseXml(g.input)
      case None => g.(notice := SyntaxError, sendDisabled := true)
      case Some(doc) =>
        var erros := ClientValidator.ClientDefects(doc, cfg.parseNum);
        if |erros| > 0 then g.(notice := ValidationErrors(erros), sendDisabled := true)
        else g.(notice := ValidClient, sendDisabled := false, ultimoXMLValido := g.input)
  }

  /** The send button's handler up to its `await`: the new state and the
      body POSTed, if any. The body is read when the request is made. The
      button is left enabled while the request is pending. A disabled
      button receives no click. */
  function OnClick(g: Gate): (r: (Gate, Option<string>))
    ensures r.1.Some? <==> !g.sendDisabled && g.ultimoXMLValido != ""
    ensures r.1.Some? ==> r.1.value == g.ultimoXMLValido && r.0.pending == g.pending + 1
    ensures r.1.None? ==> r.0.pending == g.pending
    ensures r.0.input == g.input && r.0.ultimoXMLValido == g.ultimoXMLValido && r.0.sendDisabled == g.sendDisabled
  {
    if g.sendDisabled then (g, None)
    else if g.ultimoXMLValido == "" then (g.(notice := NotValidated), None)
    else (g.(notice := Sending, pending := g.pending + 1), Some(g.ultimoXMLValido))
  }

  /** The rest of the send handler, run when one pending POST is answered:
      it acts on the state as it is at that moment, not as it was at the
      click. Nothing arrives while no request is pending. */
  function OnReply(g: Gate, outcome: Outcome): (r: Gate)
    ensures g.pending == 0 ==> r == g
    ensures g.pending > 0 ==> r.pending == g.pending - 1
    ensures r.input == g.input
    ensures g.pending > 0 && outcome.Created? ==> r.ultimoXMLValido == "" && r.sendDisabled
    ensures !outcome.Created? ==> r.ultimoXMLValido == g.ultimoXMLValido && r.sendDisabled == g.sendDisabled
  {
    if g.pending == 0 then g
    else
      var g' := g.(pending := g.pending - 1);
      match outcome
      case Created(id) => g'.(notice := Saved(id), ultimoXMLValido := "", sendDisabled := true)
      case ErrorReply(code) => g'.(notice := ServerError(code))
      case Unreachable => g'.(notice := NetworkError)
  }

  /** One event: the new state and the body POSTed, if any. */
  function Step(cfg: Config, g: Gate, ev: Event): (r: (Gate, Option<string>))
    ensures GateOk(cfg, g) ==> GateOk(cfg, r.0)
    ensures GateOk(cfg, g) && r.1.Some? ==> Accepts(cfg, r.1.value)
  {
    match ev
    case Edit(text) => (g.(input := text), None)
    case ImportExample => (g.(input := cfg.exemplo, notice := ExampleImported, sendDisabled := true), None)
    case Validate => (OnValidate(cfg, g), None)
    case Click => OnClick(g)
    case Reply(outcome) => (OnReply(g, outcome), None)
  }

  /** A session: the final state and every body POSTed, in order. */
  function Run(cfg: Config, g: Gate, evs: seq<Event>): (r: (Gate, seq<string>))
    ensures GateOk(cfg, g) ==> GateOk(cfg, r.0)
    ensures GateOk(cfg, g) ==> forall k :: 0 <= k < |r.1| ==> Accepts(cfg, r.1[k])
    ensures |r.1| <= |evs|
    decreases |evs|
  {
    if evs == [] then (g, [])
    else
      var (g1, sent) := Step(cfg, g, evs[0]);
      var (gn, rest) := Run(cfg, g1, evs[1..]);
      (gn, (if sent.Some? then [sent.value] else []) + rest)
  }

  /** A session of two events is the first step followed by the second. */
  lemma RunTwo(cfg: Config, g: Gate, a: Event, b: Event)
    ensures Run(cfg, g, [a, b]).0 == Step(cfg, Step(cfg, g, a).0, b).0
    ensures Run(cfg, g, [a, b]).1 ==
      (if Step(cfg, g, a).1.Some? then [Step(cfg, g, a).1.value] else []) +
      (if Step(cfg, Step(cfg, g, a).0, b).1.Some? then [Step(cfg, Step(cfg, g, a).0, b).1.value] else [])
  {
    var (g1, s1) := Step(cfg, g, a);
    var (g2, s2) := Step(cfg, g1, b);
    assert [b][1..] == [];
    assert Run(cfg, g2, []) == (g2, []);
    var out2: seq<string> := if s2.Some? then [s2.value] else [];
    assert out2 + [] == out2;
    assert [b][0] == b;
    assert Run(cfg, g1, [b]) == (g2, out2);
    assert [a, b][1..] == [b];
  }

  /** Every body a session starting from a freshly loaded page sends has
      passed client validation. */
  lemma OnlyValidatedTextIsSent(cfg: Config, evs: seq<Event>)
    ensures GateOk(cfg, Run(cfg, Initial, evs).0)
    ensures forall k :: 0 <= k < |Run(cfg, Initial, evs).1| ==> Accepts(cfg, Run(cfg, Initial, evs).1[k])
  {
    assert GateOk(cfg, Initial);
  }

  /** With nothing stored the handler refuses to send. */
  lemma SubmitRefusedWhenEmpty(g: Gate)
    requires g.ultimoXMLValido == ""
    ensures OnClick(g).1.None?
    ensures !g.sendDisabled ==> OnClick(g).0 == g.(notice := NotValidated)
  {
  }

  /** A created document clears the stored text and disables the button;
      a rejected or unreachable POST leaves both as they were, so the same
      text can be sent again. */
  lemma SubmitOutcomes(g: Gate, outcome: Outcome)
    requires g.pending > 0
    ensures outcome.Created? ==>
      OnReply(g, outcome) == g.(pending := g.pending - 1, notice := Saved(outcome.id), ultimoXMLValido := "", sendDisabled := true)
    ensures !outcome.Created? ==>
      OnReply(g, outcome).ultimoXMLValido == g.ultimoXMLValido && OnReply(g, outcome).sendDisabled == g.sendDisabled
  {
  }

  /** The button stays enabled while a POST is pending, so a second click
      sends the same text again before the first reply arrives. */
  lemma DoubleClickSendsTwice(cfg: Config, g: Gate)
    requires !g.sendDisabled && g.ultimoXMLValido != ""
    ensures Run(cfg, g, [Click, Click]).1 == [g.ultimoXMLValido, g.ultimoXMLValido]
    ensures Run(cfg, g, [Click, Click]).0.pending == g.pending + 2
  {
    RunTwo(cfg, g, Click, Click);
  }

  /** A created reply to an earlier POST that arrives after the user has
      edited and validated a new text clears that new text and disables
      the button: the new text was validated, was never sent, and cannot
      be sent without validating it again. */
  lemma LateReplyDiscardsNewValidation(cfg: Config, g: Gate, edited: string, id: string)
    requires !g.sendDisabled && g.ultimoXMLValido != ""
    requires !Blank(edited) && Accepts(cfg, edited)
    ensures
      var (clicked, sent) := OnClick(g);
      var validated := OnValidate(cfg, clicked.(input := edited));
      var replied := OnReply(validated, Created(id));
      && sent == Some(g.ultimoXMLValido)
      && validated.ultimoXMLValido == edited && !validated.sendDisabled
      && replied.ultimoXMLValido == "" && replied.sendDisabled
  {
    var (clicked, sent) := OnClick(g);
    var validated := OnValidate(cfg, clicked.(input := edited));
    assert validated.pending == clicked.pending > 0;
  }

  /** The body sent is the last validated text, not the one on screen:
      editing after a successful validation and sending at once POSTs the
      text as it was validated. */
  lemma EditAfterValidationSendsValidatedText(cfg: Config, g: Gate, edited: string)
    requires !Blank(g.input) && Accepts(cfg, g.input)
    ensures Run(cfg, g, [Validate, Edit(edited), Click]).1 == [g.input]
  {
    var evs := [Validate, Edit(edited), Click];
    var g1 := OnValidate(cfg, g);
    assert Step(cfg, g, evs[0]) == (g1, None);
    var g2 := g1.(input := edited);
    assert !g2.sendDisabled && g2.ultimoXMLValido == g.input;
    assert evs[1..] == [Edit(edited), Click];
    RunTwo(cfg, g1, Edit(edited), Click);
    assert Run(cfg, g1, evs[1..]).1 == [g.input];
  }

  /** A failed revalidation disables the button but leaves the previously
      validated text stored; nothing can be sent until a validation
      succeeds again. */
  lemma FailedRevalidationKeepsStoredText(cfg: Config, g: Gate)
    requires !Blank(g.input) && !Accepts(cfg, g.input)
    ensures OnValidate(cfg, g).ultimoXMLValido == g.ultimoXMLValido
    ensures OnValidate(cfg, g).sendDisabled
    ensures OnClick(OnValidate(cfg, g)).1.None?
  {
  }

  /** Validating blank input changes only the notice: the button and the
      stored text stay as they were. */
  lemma BlankInputNeverStored(cfg: Config, g: Gate)
    requires Blank(g.input)
    ensures OnValidate(cfg, g).ultimoXMLValido == g.ultimoXMLValido
    ensures OnValidate(cfg, g).sendDisabled == g.sendDisabled
  {
  }
}

=== FILE: wrappers.dfy ===
/** Something a document may lack: an attribute or child element that is
    absent, a number that does not parse, a mean with no values. */
module Wrappers {
  datatype Option<T> = None | Some(value: T)
}

=== FILE: xml_by_id.dfy ===
/** The endpoint that returns one stored document by its file name
    (`get_xml_by_id`): a traversal guard on the name, then a lookup in the
    data directory. */
module XmlById {

  /** `sub` occurs in `s` at offset `i`. */
  predicate OccursAt(s: string, sub: string, i: int) {
    0 <= i <= |s| - |sub| && s[i..i + |sub|] == sub
  }

  /** Python's `sub in s` on strings. */
  predicate Contains(s: string, sub: string) {
    exists i :: 0 <= i <= |s| && OccursAt(s, sub, i)
  }

  /** The guard: no "..", no "/" and no "\" anywhere in the id. */
  predicate SafeId(id: string) {
    !(Contains(id, "..") || Contains(id, "/") || Contains(id, "\\"))
  }

  /** The same condition stated character by character. */
  predicate NoTraversal(id: string) {
    && (forall i :: 0 <= i < |id| ==> id[i] != '/' && id[i] != '\\')
    && (forall i :: 0 <= i < |id| - 1 ==> !(id[i] == '.' && id[i + 1] == '.'))
  }

  lemma ContainsChar(s: string, c: char)
    ensures Contains(s, [c]) <==> exists i :: 0 <= i < |s| && s[i] == c
  {
    if exists i :: 0 <= i < |s| && s[i] == c {
      var i :| 0 <= i < |s| && s[i] == c;
      assert OccursAt(s, [c], i);
    }
    if Contains(s, [c]) {
      var i :| 0 <= i <= |s| && OccursAt(s, [c], i);
      assert s[i..i + 1] == [c];
      assert s[i] == c;
    }
  }

  lemma ContainsDots(s: string)
    ensures Contains(s, "..") <==> exists i :: 0 <= i < |s| - 1 && s[i] == '.' && s[i + 1] == '.'
  {
    if exists i :: 0 <= i < |s| - 1 && s[i] == '.' && s[i + 1] == '.' {
      var i :| 0 <= i < |s| - 1 && s[i] == '.' && s[i + 1] == '.';
      assert OccursAt(s, "..", i);
    }
    if Contains(s, "..") {
      var i :| 0 <= i <= |s| && OccursAt(s, "..", i);
      assert s[i..i + 2] == "..";
      assert s[i] == '.' && s[i + 1] == '.';
    }
  }

  /** The substring guard rejects exactly the ids with a slash, a
      backslash or two adjacent dots. */
  lemma SafeIdIffNoTraversal(id: string)
    ensures SafeId(id) <==> NoTraversal(id)
  {
    ContainsChar(id, '/');
    ContainsChar(id, '\\');
    ContainsDots(id);
    assert "/" == ['/'] && "\\" == ['\\'];
  }

  /** What the client receives: the file, a bare HTTP error from `abort`,
      or the JSON error reply with its status. */
  datatype Response =
    | Served(content: string)
    | Abort(status: nat)
    | JsonError(status: nat, code: string)

  const ServerErrorCode := "SERVER_ERROR"

  /** The endpoint as written. `abort(400)` raises inside the `try`, and
      the `except Exception` clause catches it; `send_from_directory`
      reports a missing file with an HTTP "not found" exception rather than
      `FileNotFoundError`, which the same clause catches. Both end up as a
      500 reply. `store` maps the data directory's file names to contents. */
  function GetXmlByIdAsWritten(id: string, store: map<string, string>): (r: Response)
    ensures r.Served? <==> SafeId(id) && id in store
    ensures r.Served? ==> r.content == store[id]
    ensures !r.Served? ==> r == JsonError(500, ServerErrorCode)
  {
    if !SafeId(id) then JsonError(500, ServerErrorCode)
    else if id in store then Served(store[id])
    else JsonError(500, ServerErrorCode)
  }

  /** A traversal attempt is answered 500, not 400, even when a file of
      that name is stored. The id `a..b` has no slash and no dot segment,
      so any HTTP client delivers it to the endpoint unchanged. */
  lemma TraversalAnswered500()
    ensures GetXmlByIdAsWritten("a..b", map["a..b" := ""]) == JsonError(500, ServerErrorCode)
  {
    assert OccursAt("a..b", "..", 1);
  }

  /** A missing file is answered 500, not 404. */
  lemma MissingFileAnswered500()
    ensures GetXmlByIdAsWritten("leitura_x.xml", map[]) == JsonError(500, ServerErrorCode)
  {
    SafeIdIffNoTraversal("leitura_x.xml");
  }

  /** The endpoint as its guard and handlers intend it: an unsafe id is
      refused with 400 whatever the directory holds, a missing file is
      404, and only a safe id naming a stored file is served. */
  function GetXmlById(id: string, store: map<string, string>): (r: Response)
    ensures !SafeId(id) ==> r == Abort(400)
    ensures SafeId(id) && id !in store ==> r == Abort(404)
    ensures r.Served? <==> NoTraversal(id) && id in store
    ensures r.Served? ==> r.content == store[id]
  {
    SafeIdIffNoTraversal(id);
    if !SafeId(id) then Abort(400)
    else if id in store then Served(store[id])
    else Abort(404)
  }

  /** The endpoint as written and as intended give the same answer exactly
      for a safe id naming a stored file; every other request gets the 500
      reply instead of the intended 400 or 404. */
  lemma AsWrittenDiffersExactlyOnErrors(id: string, store: map<string, string>)
    ensures GetXmlByIdAsWritten(id, store) != GetXmlById(id, store) <==> !(SafeId(id) && id in store)
  {
  }
}
